=== FILE: README.md ===
# BulletSpin weapon core, modelled in Dafny

BulletSpin is a small arena shooter. Its weapon fires boomerang-style
"looping bullets". Each bullet travels forward, orbits the player a fixed
number of times on a shrinking radius, then flies home. Every bullet
occupies one slot of a circular ammo magazine (`AmmoSlot`) from the moment
it is fired until it gets back.

This project models that core as pure functions over immutable records:

- the slot allocator;
- the looping-bullet phase machine;
- the `ShootOnce` composition that links them;
- the ammo HUD's index arithmetic;
- the integer bookkeeping around the weapon: enemy and player health, score,
  the enemy registry, the upgrade timer and the spawner limits.

It then proves properties of the model.

The modules follow the source files: `BulletData`, `AmmoSlot`, `AmmoUI`,
`LoopingBullets`, `BulletShooter`, `EnemyAI`, `ToxicEnemyAI`, `PlayerHealth`,
`EnemySpawner` and `GameManager`. Three modules are additions:

- `Health` holds the damage clamp, which both enemies and the player use, and
  the heal cap, which the player uses.
- `Wrappers` holds `Option`.
- `Armory` composes the allocator, the HUD cursor and every bullet in flight.
  Its main result: in every world reached from `Armory.Start` by firing and
  bullet ticks, a slot is in use exactly when one bullet in flight owns it
  (`Armory.ReachableOwns`, built on `Armory.FirePreserves` and
  `Armory.AdvancePreserves`). The upgrade path is not covered by this
  result; it breaks ownership, as the next paragraph shows.

Two further results concern the HUD and the upgrade path:

- The HUD cursor always equals the allocator's cursor. Only `ShootOnce` moves
  either, and it moves both. So the bullet fired is always the one the HUD
  shows as current.
- The upgrade path (`ReplaceBullet` on the HUD's slot) forces a slot free
  even while its bullet is still out. That breaks ownership:
  `Armory.UpgradeWhileInFlightDoubleOwns` builds a world where two bullets in
  flight own slot 0.

How the model departs from the code:

- **`IsBulletAvailable`.** `BulletShooter.ShootOnce` calls
  `AmmoSlot.IsBulletAvailable`, but `Assets/Scripts/AmmoSlot.cs`
  defines no such method. The model defines it as "index in range and slot
  not in use", false out of range. This matches `GetBulletAvailability`.
- **Redundant guard.** Given that definition, the `HasAvailableBullet` guard
  in `ShootOnce` can never fail (`AmmoSlot.AvailableImpliesHasAvailable`).
- **`SetMaxEnemies`.** Its doc comment says "up to the limit", but the code
  adds the bonus without a cap. The model follows the code.
  `EnemySpawner.SetMaxEnemiesCanPassLimit` shows a spawner raised from 10 to
  25 against a limit of 20. `EnemySpawner.SetMaxEnemiesOvershootBounded`
  shows that the next call brings it back to the limit.

Positions are abstract. A bullet tick takes a `Frame`, which carries:

- `dt`;
- whether the orbit centre and the return target still exist;
- the radius and bearing the geometry would report when the orbit starts;
- the distance to the return target after this tick's move.

Engine floats are modelled as Dafny `real`. Health and damage amounts are
integers.

## Model

| member | source | states |
|---|---|---|
| BulletData.Default | Assets/Scripts/BulletData.cs:22-34 | A fresh descriptor has speed 20, damage 1, 3 loops, vertical offset 1, orbit speed 180, return speed 10, start radius 3, end radius 1 and travel distance 2 |
| BulletData.DefaultShape | Assets/Scripts/BulletData.cs:26-31 | The default bullet has a non-zero loop count, an orbit that shrinks (end radius below start radius), and a nominal orbit angle of numberOfLoops full turns that takes numberOfLoops * 360 / orbitSpeed = 6 seconds at orbit speed (the real orbit time also depends on the entry bearing) |
| AmmoSlot.Awake | Assets/Scripts/AmmoSlot.cs:15-31 | After initialisation there are exactly max(maxSlots, 0) slots, each holding the default bullet and free; the cursor is 0 and the allocator invariant holds |
| AmmoSlot.HasAvailableBullet | Assets/Scripts/AmmoSlot.cs:36-43 | True iff some slot is not in use |
| AmmoSlot.GetNextBullet | Assets/Scripts/AmmoSlot.cs:48-69 | Grants iff some slot is free. The granted slot was free, becomes in use (no other flag changes), and its bullet type is returned. The cursor moves to (index+1) mod count. Every slot probed before it in circular order from the cursor is in use. With nothing free: null, slotIndex -1, state unchanged |
| AmmoSlot.ReturnBullet | Assets/Scripts/AmmoSlot.cs:74-81 | Frees exactly the given slot when it is in range; types, cursor and other flags are untouched; out of range it is a no-op |
| AmmoSlot.GetBulletAvailability | Assets/Scripts/AmmoSlot.cs:86-92 | One entry per slot, true exactly when that slot is free |
| AmmoSlot.IsBulletAvailable | Assets/Scripts/BulletShooter.cs:52-53 | True iff the index is in range and its availability entry is true (false out of range) |
| AmmoSlot.ReplaceBullet | Assets/Scripts/AmmoSlot.cs:96-104 | Sets the slot's type and forces it free even if in use; nothing else changes, count and cursor included; out of range it is a no-op |
| AmmoSlot.GetAllBullets | Assets/Scripts/AmmoSlot.cs:111 | The slot types in slot order, one per availability entry |
| AmmoSlot.GrantAndReturnCounts | Assets/Scripts/AmmoSlot.cs:56-81 | A grant raises the in-use count by exactly one; returning the granted slot brings it back |
| AmmoSlot.GrantThenReturn | Assets/Scripts/AmmoSlot.cs:48-81 | Granting a slot and returning it restores every flag and type; only the cursor has moved on |
| AmmoSlot.NoDoubleGrant | Assets/Scripts/AmmoSlot.cs:56-61 | Two consecutive grants without a return never hand out the same slot |
| AmmoSlot.CursorSlotFirst | Assets/Scripts/AmmoSlot.cs:50-61 | If the cursor's slot is free it is the one granted, and the cursor advances by exactly one (mod count) |
| AmmoSlot.AvailableImpliesHasAvailable | Assets/Scripts/BulletShooter.cs:52-76 | If the HUD's slot is available, HasAvailableBullet holds and GetNextBullet grants, so the later guards of ShootOnce never fail |
| AmmoSlot.TwoSlotScenario | Assets/Scripts/AmmoSlot.cs:48-81 | With two default slots: grant 0, grant 1, refuse with -1, return 0, then grant 0 again with the cursor at 1 |
| AmmoUI.RotateUIToNext | Assets/Scripts/AmmoUI.cs:50-56 | With no slots the index is unchanged; otherwise it steps to the next slot, wrapping from the last to 0, and stays in [0, count) |
| AmmoUI.NextIndex | Assets/Scripts/AmmoUI.cs:85 | The "next" place shows the slot after the current one, wrapping to 0 |
| AmmoUI.TintFor | Assets/Scripts/AmmoUI.cs:125 | An available slot is white and an unavailable one gray |
| AmmoUI.ExtrasBelow | Assets/Scripts/AmmoUI.cs:92-101 | Extra-slot indices are strictly descending, in range, never the current or next slot, and at most the room. A candidate left out means the places are full and it lies below every chosen index |
| AmmoUI.ExtrasCount | Assets/Scripts/AmmoUI.cs:93-101 | The extras hold exactly min(room, number of candidates other than current and next) |
| AmmoUI.UpdateVisuals | Assets/Scripts/AmmoUI.cs:78-113 | Nothing is drawn with no slots. Otherwise: current at scale 1.2 and next at 0.9, each tinted by availability; descending extras at 0.7; filled plus hidden extra places total 5. The extras are the highest-index candidates: a candidate left out lies below every shown extra, and only when all five places are filled |
| AmmoUI.ExtraPlacesFilled | Assets/Scripts/AmmoUI.cs:68-112 | With n slots, min(5, n-2) extra places are filled (none when n <= 2) and the rest are hidden |
| LoopingBullets.Initialize | Assets/Scripts/LoopingBullets.cs:46-77 | Stores the parameters; phase TravelForward; traveled, angle and completedLoops are 0; no slot yet |
| LoopingBullets.SetAmmoSlot | Assets/Scripts/LoopingBullets.cs:158-162 | Records the slot index to give back and changes nothing else |
| LoopingBullets.TargetRadius | Assets/Scripts/LoopingBullets.cs:131-132 | The per-loop target radius lies between startRadius and endRadius. It is the start radius before the first loop and the end radius once all loops are done |
| LoopingBullets.TravelStep | Assets/Scripts/LoopingBullets.cs:106-120 | traveled grows by travelSpeed*dt. The phase becomes Orbiting exactly when traveled reaches travelDistance, and the orbit then starts from the reported radius and bearing |
| LoopingBullets.OrbitStep | Assets/Scripts/LoopingBullets.cs:125-150 | angle grows by orbitSpeed*dt; reaching 360 wraps it once and counts exactly one loop; Returning only on a wrap with completedLoops >= numberOfLoops; the radius eases toward its target without overshooting |
| LoopingBullets.ReturnStep | Assets/Scripts/LoopingBullets.cs:175-187 | Destroyed exactly when closer than 0.1; the stored slot (if any) is released in that same step and never otherwise |
| LoopingBullets.Step | Assets/Scripts/LoopingBullets.cs:83-101 | Nothing happens when the centre or target is missing. The phase advances by at most one and never backwards. Parameters and slot are kept. Release and destruction happen only on arrival in Returning. The loop count changes only by +1 while orbiting. With both present, the current phase's step runs: TravelStep when travelling forward, OrbitStep when orbiting, ReturnStep when returning |
| LoopingBullets.StepPreserves | Assets/Scripts/LoopingBullets.cs:139-148 | completedLoops is 0 before orbiting and below numberOfLoops while orbiting. The bullet heads home having completed exactly numberOfLoops loops (one when the count is negative) |
| LoopingBullets.FlyReleasesOnce | Assets/Scripts/LoopingBullets.cs:179-185 | Over any run of ticks: phases never go back; the slot is released at most once, only the bullet's own slot, and only when it is destroyed |
| LoopingBullets.FlyPreserves | Assets/Scripts/LoopingBullets.cs:139-148 | The loop invariant holds after any run of ticks |
| BulletShooter.LaunchOf | Assets/Scripts/BulletShooter.cs:82-95 | The bullet is initialised from the granted descriptor's fields; the descriptor's speed becomes the travel speed |
| BulletShooter.ShootOnce | Assets/Scripts/BulletShooter.cs:49-101 | Fires iff shooting is not disabled and the HUD's slot is available; otherwise nothing changes. When it fires: the HUD rotates, the allocator grants, and the bullet is initialised from the granted descriptor and given the granted slot |
| BulletShooter.LaunchedBulletOwnsSlot | Assets/Scripts/BulletShooter.cs:73-96 | The fired bullet starts in TravelForward with zero counters. It owns an in-range slot that was free and is now in use, and carries that slot's damage and loop count |
| BulletShooter.CursorsStayInStep | Assets/Scripts/BulletShooter.cs:52-75 | When HUD index and allocator cursor agree, the bullet fired owns the HUD's current slot and the two still agree afterwards |
| Health.Damage | Assets/Scripts/EnemyAI.cs:49 | Health after damage is never negative; it is 0 exactly when the damage is at least the health, else health minus damage |
| Health.Heal | Assets/Scripts/PlayerHealth.cs:75 | Health after healing never exceeds the maximum; it is the maximum exactly when current plus amount reaches it, else current plus amount |
| EnemyAI.Awake | Assets/Scripts/EnemyAI.cs:31-34 | Health starts at maxHealth |
| EnemyAI.SetTarget | Assets/Scripts/EnemyAI.cs:39-42 | Only the target changes |
| EnemyAI.Die | Assets/Scripts/EnemyAI.cs:72-96 | The target is cleared and 100 points are awarded; every other field (speed, health, maximum) is unchanged |
| EnemyAI.TakeDamage | Assets/Scripts/EnemyAI.cs:47-53 | Health becomes max(current - amount, 0). The enemy dies exactly when health is <= 0 afterwards, losing its target and awarding 100. Otherwise the target is kept and no score is awarded. Speed and maximum never change |
| EnemyAI.UpgradeState | Assets/Scripts/EnemyAI.cs:58-63 | maxHealth rises by the bonus, health is refilled to the new maximum, and speed rises by the speed bonus; the target is kept |
| EnemyAI.Stride | Assets/Scripts/EnemyAI.cs:101-108 | Without a target the enemy does not move. With a non-negative speed it moves between 0 and speed * dt, and exactly speed * dt when the direction to the target is horizontal |
| EnemyAI.LethalHitStopsEnemy | Assets/Scripts/EnemyAI.cs:92-103 | After a lethal hit the enemy has died, no longer moves, and has awarded 100 points |
| EnemyAI.UpgradedSurvivesSmallHit | Assets/Scripts/EnemyAI.cs:47-62 | After an upgrade, any hit smaller than the new maximum does not kill |
| EnemyAI.HealthyAlways | Assets/Scripts/EnemyAI.cs:31-62 | Awake puts health in [0, maxHealth]; non-negative damage, and upgrades that keep the maximum non-negative, keep it there |
| ToxicEnemyAI.Fresh | Assets/Scripts/ToxicEnemyAI.cs:28-40 | Defaults: chase beyond 10, move speed 3, fire rate 2, cooldown 0, no player |
| ToxicEnemyAI.Awake | Assets/Scripts/ToxicEnemyAI.cs:45-57 | Health starts at maxHealth; the player is held afterwards iff it was held before or one exists in the scene; every other field is unchanged |
| ToxicEnemyAI.Die | Assets/Scripts/ToxicEnemyAI.cs:185-202 | The player reference is cleared and 1000 points are awarded; every other field is unchanged |
| ToxicEnemyAI.TakeDamage | Assets/Scripts/ToxicEnemyAI.cs:164-170 | Health becomes max(current - amount, 0); the enemy dies exactly when health is <= 0 afterwards, dropping the player and awarding 1000; otherwise the player is kept and nothing is awarded. No other field changes |
| ToxicEnemyAI.UpgradeState | Assets/Scripts/ToxicEnemyAI.cs:175-180 | maxHealth rises by the bonus, health is refilled to it, and moveSpeed rises by the speed bonus; no other field changes |
| ToxicEnemyAI.Update | Assets/Scripts/ToxicEnemyAI.cs:62-89 | Nothing without a player. Beyond chaseDistance it chases and the cooldown is untouched. Otherwise the cooldown drops by dt; if it is then <= 0 a shot fires and the cooldown restarts at fireRate |
| ToxicEnemyAI.NoDoubleShot | Assets/Scripts/ToxicEnemyAI.cs:81-87 | In range, a tick after a shot that is shorter than the fire rate does not fire again |
| ToxicEnemyAI.DeadToxicIsInert | Assets/Scripts/ToxicEnemyAI.cs:199 | After a lethal hit the toxic enemy does nothing on later ticks |
| ToxicEnemyAI.UpgradedSurvivesSmallHit | Assets/Scripts/ToxicEnemyAI.cs:164-180 | After an upgrade, any hit smaller than the new maximum does not kill |
| ToxicEnemyAI.HealthyAlways | Assets/Scripts/ToxicEnemyAI.cs:45-180 | Awake puts health in [0, maxHealth]; non-negative damage, upgrades that keep the maximum non-negative, and Update keep it there |
| PlayerHealth.Start | Assets/Scripts/PlayerHealth.cs:33-42 | Health starts at maxHealth |
| PlayerHealth.TakeDamageFrom | Assets/Scripts/PlayerHealth.cs:56-68 | Health becomes max(current - amount, 0). Die runs exactly when health is <= 0 afterwards, and then shooting is disabled. The damage source does not matter |
| PlayerHealth.TakeDamage | Assets/Scripts/PlayerHealth.cs:47-51 | The one-argument form gives the same result as the full form for any source and knockback switch |
| PlayerHealth.Heal | Assets/Scripts/PlayerHealth.cs:73-77 | Health becomes min(current + amount, maxHealth) and never exceeds the maximum |
| PlayerHealth.HealthStaysInRange | Assets/Scripts/PlayerHealth.cs:56-77 | With non-negative amounts, damage and healing keep health within [0, maxHealth] |
| PlayerHealth.UpgradeHealRefills | Assets/Scripts/UpgradeTrigger.cs:36-38 | The upgrade pickup's heal by maxHealth always refills the player |
| PlayerHealth.StartInRange | Assets/Scripts/PlayerHealth.cs:33-42 | Start puts health in [0, maxHealth] for any non-negative maximum |
| PlayerHealth.ReplayInRange | Assets/Scripts/PlayerHealth.cs:47-77 | Any run of non-negative hits and heals keeps health in [0, maxHealth] and leaves the maximum alone |
| EnemySpawner.Prune | Assets/Scripts/EnemySpawner.cs:48 | After pruning, each enemy that still exists occurs exactly as often as before and every other enemy is gone |
| EnemySpawner.PruneConcat | Assets/Scripts/EnemySpawner.cs:48 | Pruning a list equals pruning its two parts and joining them, so the kept enemies stay in their original order |
| EnemySpawner.PruneOne | Assets/Scripts/EnemySpawner.cs:48 | A one-element list is kept exactly when its enemy still exists |
| EnemySpawner.SetMaxEnemies | Assets/Scripts/EnemySpawner.cs:69-79 | Above the limit, maxEnemies becomes exactly the limit. Otherwise newMax is added, uncapped. Nothing else changes |
| EnemySpawner.SpawnEnemy | Assets/Scripts/EnemySpawner.cs:84-106 | Adds the new enemy iff all references are assigned and the list is below maxEnemies; otherwise nothing changes |
| EnemySpawner.Update | Assets/Scripts/EnemySpawner.cs:45-56 | A disabled spawner does nothing. Otherwise destroyed enemies are pruned first and the timer drops by dt. A spawn is attempted iff the timer is <= 0 and the pruned count is below maxEnemies. The delay is redrawn on every attempt, even one that spawns nothing. Only the list and the timer ever change |
| EnemySpawner.UpdateRespectsMax | Assets/Scripts/EnemySpawner.cs:45-56 | An Update leaves the pruned list as it is or adds one enemy, and adds only while the result stays within maxEnemies. So the list never grows beyond max(pruned length, maxEnemies), and a list within maxEnemies stays within it. Every kept entry other than a new one still exists |
| EnemySpawner.SetMaxEnemiesCanPassLimit | Assets/Scripts/EnemySpawner.cs:66-79 | From 10 with limit 20, a bonus of 15 gives 25, above the limit |
| EnemySpawner.SetMaxEnemiesOvershootBounded | Assets/Scripts/EnemySpawner.cs:69-79 | With a non-negative bonus the value stays at most limit + bonus, and an overshoot is undone by the next call |
| GameManager.Fresh | Assets/Scripts/GameManager.cs:22-36 | Score starts at 0, the timer at 60, the latch clear, the pickup hidden, the registry empty and so free of duplicates |
| GameManager.RegisterEnemy | Assets/Scripts/GameManager.cs:82-86 | Appends the enemy only if absent; it is listed afterwards and a duplicate-free list stays duplicate-free |
| GameManager.FirstIndex | Assets/Scripts/GameManager.cs:94 | The position found holds the enemy, and no earlier position does |
| GameManager.RemoveFirst | Assets/Scripts/GameManager.cs:94 | The result is the list with its first occurrence of the enemy cut out, the rest in their original order; other members are kept, and in a duplicate-free list the removed one is gone |
| GameManager.UnregisterEnemy | Assets/Scripts/GameManager.cs:91-95 | Absent: no-op. Present: its first occurrence is cut out and the rest keep their order. Nothing outside the registry changes |
| GameManager.RegistryStaysDuplicateFree | Assets/Scripts/GameManager.cs:82-95 | Any run of registrations and removals keeps a duplicate-free registry duplicate-free and changes nothing outside it |
| GameManager.AddScore | Assets/Scripts/GameManager.cs:164-177 | The score read back by the getter GetCurrentScore rises by exactly the amount; nothing else changes |
| GameManager.AddScoreComposes | Assets/Scripts/GameManager.cs:164-177 | Two additions equal one addition of their sum, and adding 0 changes nothing |
| GameManager.Update | Assets/Scripts/GameManager.cs:50-69 | The timer runs down by dt only while the latch is clear. The latch becomes set once the timer is <= 0; then the pickup shows and every spawner is disabled. A tick that does not latch changes only the timer. While set, nothing changes |
| GameManager.ResetUpgradeTimer | Assets/Scripts/GameManager.cs:137-141 | The timer is back at 60, the latch is clear, and nothing else changes |
| GameManager.UpgradeAllEnemies | Assets/Scripts/GameManager.cs:100-117 | The timer becomes 0. With a duplicate-free registry, each registered enemy that still exists is upgraded exactly once and every other object is untouched |
| GameManager.UpgradeEachOnce | Assets/Scripts/GameManager.cs:102-115 | Walking a duplicate-free registry upgrades each listed live enemy once and nothing else |
| GameManager.OnUpgradeResume | Assets/Scripts/GameManager.cs:147-159 | Every enemy is upgraded and every spawner has its limit raised and is re-enabled. Because the reset runs after the timer is zeroed, the timer ends at 60 and the latch clear |
| GameManager.UpgradeRound | Assets/Scripts/GameManager.cs:52-59 | Once the timer runs out the latch holds and time stops counting; after the resume the timer runs from 60 again |
| GameManager.KillScores | Assets/Scripts/GameManager.cs:164-166 | A kill adds exactly 100 points for a basic enemy and 1000 for a toxic one |
| Armory.Start | Assets/Scripts/AmmoUI.cs:28 | The weapon starts consistent: HUD at slot 0, allocator fresh, nothing in flight |
| Armory.Fire | Assets/Scripts/BulletShooter.cs:49-101 | Fires iff shooting is allowed and the HUD's slot is free; otherwise the world is unchanged. A shot keeps the earlier bullets, rotates the HUD, and appends one bullet. That bullet owns the slot the allocator grants, which was free. Only that slot's flag is set; the types are kept; the cursor moves to the slot after it. The bullet is initialised from that slot's descriptor |
| Armory.Advance | Assets/Scripts/LoopingBullets.cs:83-101 | One bullet ticks. On arrival it leaves the list, the others keeping their order; otherwise it is replaced by its next state and the allocator is untouched. An arriving bullet that owns a slot returns it, which frees that slot whether or not the rest of the world is consistent; one without a slot leaves the allocator as it is. Types, cursor and HUD never change |
| Armory.Upgrade | Assets/Scripts/UpgradeBullet.cs:33-38 | Only the allocator changes: the HUD's slot gets the new type and is freed, every other slot, the count and the cursor are kept |
| Armory.FirePreserves | Assets/Scripts/BulletShooter.cs:71-96 | Firing keeps the invariant: each in-use slot has exactly one bullet in flight owning it, and the HUD cursor equals the allocator cursor |
| Armory.AdvancePreserves | Assets/Scripts/LoopingBullets.cs:179-185 | A bullet tick keeps the ownership invariant. An arriving bullet leaves the list and its slot is returned and free, with no remaining bullet owning it; any other tick leaves the allocator and the number of bullets alone |
| Armory.ApplyPreserves | Assets/Scripts/BulletShooter.cs:49-101 | A trigger pull or a bullet tick keeps the ownership invariant |
| Armory.RunPreserves | Assets/Scripts/LoopingBullets.cs:83-101 | Any run of trigger pulls and bullet ticks keeps the ownership invariant |
| Armory.ReachableOwns | Assets/Scripts/BulletShooter.cs:71-96 | Every world reached from the start by firing and bullet ticks is consistent |
| Armory.FireUsesShownSlot | Assets/Scripts/BulletShooter.cs:52-75 | In a consistent world the bullet fired owns the slot the HUD showed, and no other bullet in flight owns it |
| Armory.DeathStopsShooting | Assets/Scripts/PlayerHealth.cs:82-86 | After a lethal hit on the player, firing changes nothing |
| Armory.UpgradeWhileInFlightDoubleOwns | Assets/Scripts/AmmoSlot.cs:96-104 | Replacing the HUD's slot while its bullet is out breaks ownership. With one slot: fire, upgrade, fire, and two bullets own slot 0 |

## Left out

- Geometry is not modelled: positions, directions, `Atan2`, `Cos`/`Sin`, `MoveTowards`, `LookRotation`, `Slerp`, aiming at the mouse, knockback, and the toxic enemy's ballistic shot. Their only effects on the modelled state come in as `Frame` inputs, or as the distance argument of `ToxicEnemyAI.Update`.
- Floating point is modelled as exact `real` arithmetic: no rounding, NaN or infinity.
- `LoopingBullets.Step`: requires `numberOfLoops != 0`. With zero loops the radius interpolation divides by zero and the source computes with NaN. Negative loop counts are modelled.
- `PlayerHealth.TakeDamageFrom`: damage amounts are integers, so `RoundToInt` is exact. Float damage with a fractional part is not modelled.
- `BulletShooter.ShootOnce`: it fires into the modelled state only. It assumes the bullet prefab carries a `LoopingBullets` component and the slot's descriptor is not null. With a null descriptor the source would mark a slot in use and never launch a bullet to free it.
- `BulletShooter.ShootOnce`: in the source the HUD rotates before the allocator is asked. In the model the two steps are independent, so this order cannot be observed.
- `LoopingBullets.OnTriggerEnter`, enemy and player collision handlers, `ToxicPool` and `ToxicBullet` are collision callbacks. The model only carries the damage value.
- `UpgradeBullet` is modelled only by its effect, `Armory.Upgrade`: `ReplaceBullet` on the HUD's current index. `UpgradeTrigger` is modelled only through the shooting-disabled flag and the heal by `maxHealth`. Time scale, UI activation and static flags are not modelled.
- Engine wiring is not modelled: `ForceReceiver`, `PlayerBaseMachine`, `PlayerMoveState`, `PlayerStateMachine`, `InputReader`, `MainMenu`, `FlashDamage`, audio, animator triggers, score text formatting, the health bar, and `AmmoSlot`'s debug mirror lists.
- Randomness is not modelled. The spawner's random delay and spawn position are inputs, and the identity of a new enemy is an input.
- Destruction is modelled as absence. Destroyed objects are identities missing from the live set or scene map. A game object carrying both enemy components, and null entries registered on purpose, are not modelled.
- Integers are unbounded. C# `int` wraps on overflow in `score += amount`, `currentHealth -= amount` and `maxEnemies += newMax`; the model does not wrap.
- Every serialized reference is assumed assigned. A missing animator, trigger prefab or force receiver would raise an exception partway through `EnemyAI.Die`, `GameManager.Update` or `ShootOnce`, leaving the later steps undone. The model always runs them to the end.
- Spawners with a null entry in the game manager's array are not modelled: every spawner in the list is present.

=== FILE: ammo_slot.dfy ===
/**
 The ammo-slot allocator: a fixed-length circular array of bullet types, each
 with an in-use flag, and a cursor that makes allocation round-robin.
 */
module AmmoSlot {
  import opened Wrappers
  import opened BulletData

  datatype Allocator = Allocator(
    slots: seq<Descriptor>,  // bullet type held by each slot
    inUse: seq<bool>,        // true while a bullet of that slot is in flight
    cursor: int              // where the next allocation starts probing
  )

  /** What an allocation request hands back: the new allocator state, the
      granted bullet type (None for "no bullet"), and the granted slot
      index (-1 when nothing was granted). */
  datatype Grant = Grant(next: Allocator, bullet: Option<Descriptor>, slotIndex: int)

  function Count(a: Allocator): nat {
    |a.slots|
  }

  /** The allocator invariant: one flag per slot and the cursor inside the
      array (or 0 when the array is empty). */
  predicate Valid(a: Allocator) {
    && |a.inUse| == |a.slots|
    && 0 <= a.cursor
    && (a.cursor < |a.slots| || a.cursor == 0)
  }

  predicate Free(a: Allocator, i: int)
    requires Valid(a)
  {
    0 <= i < |a.inUse| && !a.inUse[i]
  }

  /** Slot probed at offset j when scanning circularly from `start`. */
  function Probe(start: int, j: int, n: int): int
    requires n > 0
  {
    (start + j) % n
  }

  /** Number of flags that are set. */
  function InUseCount(flags: seq<bool>): (c: nat)
    ensures c <= |flags|
  {
    if flags == [] then 0
    else (if flags[0] then 1 else 0) + InUseCount(flags[1..])
  }

  // ---------------------------------------------------------------------
  // Operations
  // ---------------------------------------------------------------------

  /** Awake: `maxSlots` slots, all holding `defaultBullet`, all free; the
      cursor keeps its field initial value 0. A non-positive `maxSlots`
      builds no slot at all. */
  function Awake(maxSlots: int, defaultBullet: Descriptor): (a: Allocator)
    ensures Valid(a)
    ensures Count(a) == if maxSlots > 0 then maxSlots else 0
    ensures forall i :: 0 <= i < |a.slots| ==> a.slots[i] == defaultBullet && !a.inUse[i]
    ensures a.cursor == 0
  {
    var n := if maxSlots > 0 then maxSlots else 0;
    Allocator(seq(n, _ => defaultBullet), seq(n, _ => false), 0)
  }

  /** True iff at least one flag in `flags` is clear. */
  function AnyFree(flags: seq<bool>): (r: bool)
    ensures r <==> exists i :: 0 <= i < |flags| && !flags[i]
  {
    if flags == [] then false
    else if !flags[0] then true
    else
      var rest := AnyFree(flags[1..]);
      assert forall i :: 1 <= i < |flags| ==> flags[i] == flags[1..][i - 1];
      rest
  }

  /** HasAvailableBullet: is any slot free? */
  function HasAvailableBullet(a: Allocator): (r: bool)
    requires Valid(a)
    ensures r <==> exists i :: 0 <= i < Count(a) && Free(a, i)
  {
    assert forall i :: Free(a, i) <==> 0 <= i < |a.inUse| && !a.inUse[i];
    AnyFree(a.inUse)
  }

  /** Offset of the first clear flag met when probing offsets j, j+1, ...,
      n-1 circularly from `start`; None when every probe hits a set flag. */
  function FirstFreeOffset(flags: seq<bool>, start: int, j: nat): (r: Option<nat>)
    requires |flags| > 0 && 0 <= start
    requires j <= |flags|
    ensures r.Some? ==> j <= r.value < |flags| && !flags[Probe(start, r.value, |flags|)]
    ensures r.Some? ==> forall k :: j <= k < r.value ==> flags[Probe(start, k, |flags|)]
    ensures r.None? ==> forall k :: j <= k < |flags| ==> flags[Probe(start, k, |flags|)]
    decreases |flags| - j
  {
    if j == |flags| then None
    else if !flags[Probe(start, j, |flags|)] then Some(j)
    else FirstFreeOffset(flags, start, j + 1)
  }

  /** GetNextBullet: grant the first free slot met scanning circularly from
      the cursor, mark it in use and move the cursor just past it. */
  function GetNextBullet(a: Allocator): (g: Grant)
    requires Valid(a)
    ensures Valid(g.next)
    ensures g.next.slots == a.slots
    ensures g.bullet.Some? <==> HasAvailableBullet(a)
    ensures g.bullet.Some? ==>
      && Free(a, g.slotIndex)
      && g.bullet.value == a.slots[g.slotIndex]
      && g.next.inUse == a.inUse[g.slotIndex := true]
      && g.next.cursor == (g.slotIndex + 1) % Count(a)
    ensures g.bullet.Some? ==>
      forall k :: 0 <= k < (g.slotIndex - a.cursor) % Count(a) ==>
        a.inUse[Probe(a.cursor, k, Count(a))]
    ensures g.bullet.None? ==> g.slotIndex == -1 && g.next == a
  {
    if |a.slots| == 0 then Grant(a, None, -1)
    else
      var n := |a.slots|;
      match FirstFreeOffset(a.inUse, a.cursor, 0)
      case None =>
        AllProbesCoverAll(a.inUse, a.cursor);
        Grant(a, None, -1)
      case Some(off) =>
        var index := Probe(a.cursor, off, n);
        ProbeDistance(a.cursor, off, n);
        Grant(a.(inUse := a.inUse[index := true], cursor := (index + 1) % n),
              Some(a.slots[index]), index)
  }

  /** ReturnBullet: free slot `index`; out-of-range indices are ignored. */
  function ReturnBullet(a: Allocator, index: int): (r: Allocator)
    requires Valid(a)
    ensures Valid(r)
    ensures r.slots == a.slots && r.cursor == a.cursor && |r.inUse| == |a.inUse|
    ensures 0 <= index < Count(a) ==> !r.inUse[index]
    ensures forall i :: 0 <= i < Count(a) && i != index ==> r.inUse[i] == a.inUse[i]
    ensures !(0 <= index < Count(a)) ==> r == a
  {
    if 0 <= index < |a.inUse| then a.(inUse := a.inUse[index := false]) else a
  }

  /** GetBulletAvailability: one flag per slot, true meaning free. */
  function GetBulletAvailability(a: Allocator): (r: seq<bool>)
    requires Valid(a)
    ensures |r| == Count(a)
    ensures forall i :: 0 <= i < |r| ==> (r[i] <==> Free(a, i))
  {
    seq(|a.inUse|, i requires 0 <= i < |a.inUse| => !a.inUse[i])
  }

  /** IsBulletAvailable: is slot `index` free? False out of range. */
  function IsBulletAvailable(a: Allocator, index: int): (r: bool)
    requires Valid(a)
    ensures r <==> 0 <= index < Count(a) && GetBulletAvailability(a)[index]
  {
    0 <= index < |a.inUse| && !a.inUse[index]
  }

  /** ReplaceBullet: give slot `index` a new bullet type and force it free,
      even when it is in use; out-of-range indices are ignored. */
  function ReplaceBullet(a: Allocator, index: int, newBullet: Descriptor): (r: Allocator)
    requires Valid(a)
    ensures Valid(r)
    ensures r.cursor == a.cursor && Count(r) == Count(a)
    ensures 0 <= index < Count(a) ==> r.slots[index] == newBullet && !r.inUse[index]
    ensures forall i :: 0 <= i < Count(a) && i != index ==>
      r.slots[i] == a.slots[i] && r.inUse[i] == a.inUse[i]
    ensures !(0 <= index < Count(a)) ==> r == a
  {
    if 0 <= index < |a.slots| then
      a.(slots := a.slots[index := newBullet], inUse := a.inUse[index := false])
    else a
  }

  /** GetAllBullets: the bullet types, one per slot, in slot order. */
  function GetAllBullets(a: Allocator): (r: seq<Descriptor>)
    requires Valid(a)
    ensures |r| == |GetBulletAvailability(a)|
    ensures forall i :: 0 <= i < |r| ==> r[i] == a.slots[i]
  {
    a.slots
  }

  // ---------------------------------------------------------------------
  // Helper lemmas
  // ---------------------------------------------------------------------

  lemma WrapOnce(x: int, n: int)
    requires n > 0 && 0 <= x < 2 * n
    ensures x % n == if x < n then x else x - n
  {
  }

  /** The probe at offset `off` lies `off` slots after `start`. */
  lemma ProbeDistance(start: int, off: int, n: int)
    requires n > 0 && 0 <= start < n && 0 <= off < n
    ensures 0 <= Probe(start, off, n) < n
    ensures (Probe(start, off, n) - start) % n == off
  {
    WrapOnce(start + off, n);
    if start + off < n {
      assert Probe(start, off, n) - start == off;
    } else {
      assert Probe(start, off, n) - start == off - n;
      assert (off - n) % n == off;
    }
  }

  /** Probing offsets 0..n-1 from a cursor in range visits every slot. */
  lemma AllProbesCoverAll(flags: seq<bool>, start: int)
    requires |flags| > 0 && 0 <= start < |flags|
    requires forall k :: 0 <= k < |flags| ==> flags[Probe(start, k, |flags|)]
    ensures forall i :: 0 <= i < |flags| ==> flags[i]
  {
    var n := |flags|;
    forall i | 0 <= i < n
      ensures flags[i]
    {
      var k := if i >= start then i - start else i - start + n;
      WrapOnce(start + k, n);
      assert Probe(start, k, n) == i;
    }
  }

  lemma {:induction false} InUseCountUpdate(flags: seq<bool>, k: int, v: bool)
    requires 0 <= k < |flags|
    ensures InUseCount(flags[k := v]) ==
      InUseCount(flags) - (if flags[k] then 1 else 0) + (if v then 1 else 0)
  {
    if k == 0 {
      assert flags[k := v][1..] == flags[1..];
    } else {
      assert flags[k := v][1..] == flags[1..][k - 1 := v];
      InUseCountUpdate(flags[1..], k - 1, v);
    }
  }

  // ---------------------------------------------------------------------
  // Properties
  // ---------------------------------------------------------------------

  /** A grant claims exactly one more slot, and returning the slot it
      granted brings the in-use count back to where it was. */
  lemma GrantAndReturnCounts(a: Allocator)
    requires Valid(a)
    ensures var g := GetNextBullet(a);
      g.bullet.Some? ==> InUseCount(g.next.inUse) == InUseCount(a.inUse) + 1
    ensures var g := GetNextBullet(a);
      g.bullet.Some? ==> InUseCount(ReturnBullet(g.next, g.slotIndex).inUse) == InUseCount(a.inUse)
  {
    var g := GetNextBullet(a);
    if g.bullet.Some? {
      InUseCountUpdate(a.inUse, g.slotIndex, true);
      InUseCountUpdate(g.next.inUse, g.slotIndex, false);
    }
  }

  /** Granting a slot and returning it restores every flag and type; only
      the cursor has moved on. */
  lemma GrantThenReturn(a: Allocator)
    requires Valid(a)
    requires HasAvailableBullet(a)
    ensures var g := GetNextBullet(a);
      var r := ReturnBullet(g.next, g.slotIndex);
      r.slots == a.slots && r.inUse == a.inUse && r.cursor == (g.slotIndex + 1) % Count(a)
  {
    var g := GetNextBullet(a);
    var r := ReturnBullet(g.next, g.slotIndex);
    assert r.inUse == a.inUse[g.slotIndex := true][g.slotIndex := false];
  }

  /** Two consecutive grants never hand out the same slot. */
  lemma NoDoubleGrant(a: Allocator)
    requires Valid(a)
    ensures var g1 := GetNextBullet(a);
      var g2 := GetNextBullet(g1.next);
      g1.bullet.Some? && g2.bullet.Some? ==> g1.slotIndex != g2.slotIndex
  {
  }

  /** When the cursor's own slot is free, it is the one granted, and the
      cursor advances by exactly one position. */
  lemma CursorSlotFirst(a: Allocator)
    requires Valid(a)
    requires Free(a, a.cursor)
    ensures GetNextBullet(a).slotIndex == a.cursor
    ensures GetNextBullet(a).next.cursor == (a.cursor + 1) % Count(a)
  {
    assert Probe(a.cursor, 0, Count(a)) == a.cursor;
  }

  /** A free slot at any index implies the allocator can grant. */
  lemma AvailableImpliesHasAvailable(a: Allocator, index: int)
    requires Valid(a)
    requires IsBulletAvailable(a, index)
    ensures HasAvailableBullet(a)
    ensures GetNextBullet(a).bullet.Some?
  {
    assert Free(a, index);
  }

  /** Capacity 2, both slots default: grant 0, grant 1, refuse, return 0,
      grant 0 again with the cursor back at 1. */
  lemma TwoSlotScenario(d: Descriptor)
    ensures var a0 := Awake(2, d);
      var g1 := GetNextBullet(a0);
      var g2 := GetNextBullet(g1.next);
      var g3 := GetNextBullet(g2.next);
      var a4 := ReturnBullet(g3.next, 0);
      var g5 := GetNextBullet(a4);
      && g1.bullet == Some(d) && g1.slotIndex == 0 && g1.next.inUse == [true, false]
      && g2.bullet == Some(d) && g2.slotIndex == 1 && g2.next.inUse == [true, true]
      && g3.bullet == None && g3.slotIndex == -1
      && a4.inUse == [false, true]
      && g5.bullet == Some(d) && g5.slotIndex == 0 && g5.next.cursor == 1
  {
    var a0 := Awake(2, d);
    assert a0.inUse == [false, false];
    CursorSlotFirst(a0);
    var g1 := GetNextBullet(a0);
    assert g1.next.inUse == [true, false];
    CursorSlotFirst(g1.next);
    var g2 := GetNextBullet(g1.next);
    assert g2.next.inUse == [true, true];
    var g3 := GetNextBullet(g2.next);
    assert !HasAvailableBullet(g2.next);
    var a4 := ReturnBullet(g3.next, 0);
    assert a4.inUse == [false, true];
    assert a4.cursor == 0;
    CursorSlotFirst(a4);
  }

}

=== FILE: ammo_ui.dfy ===
/**
 The ammo HUD's index arithmetic: which slot is "current", which is "next",
 which further slots fill the (five) extra places, and how a slot is tinted.
 Sprites, positions and layout are presentation and are not modelled.
 */
module AmmoUI {
  import opened Wrappers

  /** Number of extra slot images the HUD creates. */
  const ExtraSlots: nat := 5

  const CurrentScale: real := 1.2
  const NextScale: real := 0.9
  const ExtraScale: real := 0.7

  datatype Tint = White | Gray

  /** One drawn slot image: which slot it shows, its tint and scale. */
  datatype SlotView = SlotView(index: int, tint: Tint, scale: real)

  /** A frame of the HUD: the current and next images, the filled extra
      images (in place order) and how many extra images are hidden. */
  datatype Visuals = Visuals(current: SlotView, next: SlotView, extras: seq<SlotView>, hidden: nat)

  /** The HUD cursor's value when the component is created. */
  const InitialIndex: int := 0

  /** RotateUIToNext: step the cursor to the next slot, wrapping; nothing
      changes when there are no slots. */
  function RotateUIToNext(currentIndex: int, count: int): (r: int)
    requires currentIndex >= 0 && count >= 0
    ensures count == 0 ==> r == currentIndex
    ensures count > 0 ==> 0 <= r < count
    ensures count > 0 && currentIndex < count ==>
      r == (if currentIndex == count - 1 then 0 else currentIndex + 1)
  {
    if count == 0 then currentIndex else (currentIndex + 1) % count
  }

  /** The slot shown in the "next" place. */
  function NextIndex(currentIndex: int, count: int): (r: int)
    requires 0 <= currentIndex < count
    ensures 0 <= r < count
    ensures r == (if currentIndex == count - 1 then 0 else currentIndex + 1)
  {
    (currentIndex + 1) % count
  }

  /** Available slots are drawn white, unavailable ones gray. */
  function TintFor(available: bool): (t: Tint)
    ensures t == White <==> available
  {
    if available then White else Gray
  }

  predicate StrictlyDescending(s: seq<int>) {
    forall i, j :: 0 <= i < j < |s| ==> s[i] > s[j]
  }

  /** Extra-slot indices: scanning slot indices hi-1 down to 0, skipping
      `cur` and `nxt`, taking at most `room` of them. */
  function ExtrasBelow(hi: int, cur: int, nxt: int, room: nat): (r: seq<int>)
    ensures |r| <= room
    ensures forall k :: 0 <= k < |r| ==> 0 <= r[k] < hi && r[k] != cur && r[k] != nxt
    ensures StrictlyDescending(r)
    ensures forall j :: 0 <= j < hi && j != cur && j != nxt && j !in r ==>
      |r| == room && forall k :: 0 <= k < |r| ==> j < r[k]
    decreases if hi > 0 then hi else 0
  {
    if hi <= 0 || room == 0 then []
    else if hi - 1 == cur || hi - 1 == nxt then ExtrasBelow(hi - 1, cur, nxt, room)
    else [hi - 1] + ExtrasBelow(hi - 1, cur, nxt, room - 1)
  }

  /** The slot indices the given images show, in place order. */
  function Shown(images: seq<SlotView>): seq<int> {
    seq(|images|, k requires 0 <= k < |images| => images[k].index)
  }

  /** UpdateVisuals: the current slot, the next slot and up to five extra
      slots in descending index order, each tinted by its availability;
      nothing is drawn when there are no slots. The extras are the highest
      candidates: one left out lies below every shown extra, and only when
      all five places are taken. */
  function UpdateVisuals(currentIndex: int, availability: seq<bool>): (v: Option<Visuals>)
    requires |availability| == 0 || 0 <= currentIndex < |availability|
    ensures v.None? <==> |availability| == 0
    ensures v.Some? ==>
      var n := |availability|;
      var nxt := NextIndex(currentIndex, n);
      && v.value.current == SlotView(currentIndex, TintFor(availability[currentIndex]), CurrentScale)
      && v.value.next == SlotView(nxt, TintFor(availability[nxt]), NextScale)
      && |v.value.extras| + v.value.hidden == ExtraSlots
      && (forall k :: 0 <= k < |v.value.extras| ==>
            var e := v.value.extras[k];
            && 0 <= e.index < n && e.index != currentIndex && e.index != nxt
            && e.tint == TintFor(availability[e.index]) && e.scale == ExtraScale)
      && (forall k, l :: 0 <= k < l < |v.value.extras| ==>
            v.value.extras[k].index > v.value.extras[l].index)
      && (forall j :: 0 <= j < n && j != currentIndex && j != nxt && j !in Shown(v.value.extras) ==>
            && |v.value.extras| == ExtraSlots
            && forall k :: 0 <= k < |v.value.extras| ==> j < v.value.extras[k].index)
  {
    var n := |availability|;
    if n < 1 then None
    else
      var nxt := NextIndex(currentIndex, n);
      var picks := ExtrasBelow(n, currentIndex, nxt, ExtraSlots);
      var extras := seq(|picks|, k requires 0 <= k < |picks| =>
                        SlotView(picks[k], TintFor(availability[picks[k]]), ExtraScale));
      assert Shown(extras) == picks;
      Some(Visuals(
        SlotView(currentIndex, TintFor(availability[currentIndex]), CurrentScale),
        SlotView(nxt, TintFor(availability[nxt]), NextScale),
        extras,
        ExtraSlots - |picks|))
  }

  /** Number of slot indices in [0, hi) other than `cur` and `nxt`: the
      reference count of candidates for the extra places. */
  function Others(hi: int, cur: int, nxt: int): nat
    decreases if hi > 0 then hi else 0
  {
    if hi <= 0 then 0
    else Others(hi - 1, cur, nxt) + (if hi - 1 == cur || hi - 1 == nxt then 0 else 1)
  }

  function Min(a: int, b: int): int {
    if a <= b then a else b
  }

  /** The extra places take as many candidates as fit: all of them when
      there are at most `room`, otherwise exactly `room`. */
  lemma {:induction false} ExtrasCount(hi: int, cur: int, nxt: int, room: nat)
    ensures |ExtrasBelow(hi, cur, nxt, room)| == Min(room, Others(hi, cur, nxt))
    decreases if hi > 0 then hi else 0
  {
    if hi <= 0 || room == 0 {
    } else if hi - 1 == cur || hi - 1 == nxt {
      ExtrasCount(hi - 1, cur, nxt, room);
    } else {
      ExtrasCount(hi - 1, cur, nxt, room - 1);
    }
  }

  /** Two distinct in-range indices leave hi - 2 candidates. */
  lemma {:induction false} OthersOfTwo(hi: int, cur: int, nxt: int)
    requires 0 <= cur < hi && 0 <= nxt < hi && cur != nxt
    ensures Others(hi, cur, nxt) == hi - 2
    decreases hi
  {
    if hi - 1 == cur {
      OthersOfOne(hi - 1, nxt, cur);
    } else if hi - 1 == nxt {
      OthersOfOne(hi - 1, cur, nxt);
    } else {
      OthersOfTwo(hi - 1, cur, nxt);
    }
  }

  /** One in-range index (and one at or above hi) leaves hi - 1 candidates. */
  lemma {:induction false} OthersOfOne(hi: int, inside: int, outside: int)
    requires 0 <= inside < hi <= outside
    ensures Others(hi, inside, outside) == hi - 1
    ensures Others(hi, outside, inside) == hi - 1
    decreases hi
  {
    if hi - 1 != inside {
      OthersOfOne(hi - 1, inside, outside);
    } else {
      NoneIndexed(hi - 1, inside, outside);
    }
  }

  /** Below both skipped indices every index is a candidate. */
  lemma {:induction false} NoneIndexed(hi: int, a: int, b: int)
    requires 0 <= hi <= a && hi <= b
    ensures Others(hi, a, b) == hi && Others(hi, b, a) == hi
    decreases hi
  {
    if hi > 0 {
      NoneIndexed(hi - 1, a, b);
    }
  }

  /** With n slots the HUD fills min(5, n - 2) extra places (none when
      n <= 2) and hides the rest. */
  lemma ExtraPlacesFilled(currentIndex: int, availability: seq<bool>)
    requires 0 <= currentIndex < |availability|
    ensures var v := UpdateVisuals(currentIndex, availability).value;
      var n := |availability|;
      |v.extras| == (if n <= 2 then 0 else Min(ExtraSlots, n - 2))
      && v.hidden == ExtraSlots - |v.extras|
  {
    var n := |availability|;
    var nxt := NextIndex(currentIndex, n);
    ExtrasCount(n, currentIndex, nxt, ExtraSlots);
    if n == 1 {
      assert Others(1, 0, 0) == 0;
    } else {
      OthersOfTwo(n, currentIndex, nxt);
    }
  }

}

=== FILE: armory.dfy ===
/**
 The weapon as a whole: the allocator, the HUD cursor, and every looping
 bullet in flight. A slot is in use exactly when one bullet in flight owns
 it; firing and bullet ticks keep that true, and the upgrade path's forced
 replacement of an in-use slot breaks it.
 */
module Armory {
  import opened Wrappers
  import opened BulletData
  import opened AmmoSlot
  import opened LoopingBullets
  import BulletShooter
  import PlayerHealth
  import AmmoUI

  datatype World = World(
    alloc: Allocator,
    uiIndex: int,              // the HUD's current slot
    flights: seq<Flight>,      // bullets in flight, in launch order
    isUpgrading: bool          // shooting disabled
  )

  // ---------------------------------------------------------------------
  // The ownership invariant
  // ---------------------------------------------------------------------

  /** Every bullet in flight owns an in-range slot that is marked in use,
      and keeps its loop invariant. */
  predicate FlightsClaimInUse(w: World)
    requires Valid(w.alloc)
  {
    forall i :: 0 <= i < |w.flights| ==>
      && w.flights[i].slot.Some?
      && 0 <= w.flights[i].slot.value < Count(w.alloc)
      && w.alloc.inUse[w.flights[i].slot.value]
      && LoopInv(w.flights[i])
  }

  /** No two bullets in flight own the same slot. */
  predicate DistinctOwners(flights: seq<Flight>) {
    forall i, j :: 0 <= i < j < |flights| ==> flights[i].slot != flights[j].slot
  }

  /** Every in-use slot is owned by some bullet in flight. */
  predicate InUseIsOwned(w: World)
    requires Valid(w.alloc)
  {
    forall s :: 0 <= s < Count(w.alloc) && w.alloc.inUse[s] ==>
      exists i :: 0 <= i < |w.flights| && w.flights[i].slot == Some(s)
  }

  predicate Owns(w: World) {
    && Valid(w.alloc)
    && w.uiIndex == w.alloc.cursor
    && (forall s :: 0 <= s < Count(w.alloc) ==> Flyable(w.alloc.slots[s]))
    && FlightsClaimInUse(w)
    && DistinctOwners(w.flights)
    && InUseIsOwned(w)
  }

  // ---------------------------------------------------------------------
  // World operations
  // ---------------------------------------------------------------------

  /** The weapon at scene start: a fresh allocator, the HUD at slot 0, no
      bullet in flight, shooting allowed. */
  function Start(maxSlots: int, defaultBullet: Descriptor): (w: World)
    requires Flyable(defaultBullet)
    ensures Owns(w)
    ensures w.uiIndex == 0 && w.flights == [] && !w.isUpgrading
  {
    World(Awake(maxSlots, defaultBullet), AmmoUI.InitialIndex, [], false)
  }

  /** ShootOnce, with the launched bullet joining the bullets in flight.
      Either nothing changes, or exactly one fresh bullet is appended that
      owns a slot which was free and is now in use. */
  function Fire(w: World): (r: World)
    requires Valid(w.alloc) && w.uiIndex >= 0
    ensures Valid(r.alloc) && Count(r.alloc) == Count(w.alloc)
    ensures |r.flights| == |w.flights| + 1 <==> !w.isUpgrading && IsBulletAvailable(w.alloc, w.uiIndex)
    ensures |r.flights| != |w.flights| + 1 ==> r == w
    ensures |r.flights| == |w.flights| + 1 ==>
      var f := r.flights[|w.flights|];
      && r.flights[..|w.flights|] == w.flights
      && r.isUpgrading == w.isUpgrading
      && r.uiIndex == AmmoUI.RotateUIToNext(w.uiIndex, Count(w.alloc))
      && f.phase == TravelForward && f.completedLoops == 0
      && f.slot.Some? && 0 <= f.slot.value < Count(w.alloc)
      && f.slot.value == GetNextBullet(w.alloc).slotIndex
      && !w.alloc.inUse[f.slot.value] && r.alloc.inUse[f.slot.value]
      && r.alloc.slots == w.alloc.slots
      && r.alloc.inUse == w.alloc.inUse[f.slot.value := true]
      && r.alloc.cursor == (f.slot.value + 1) % Count(w.alloc)
      && f == SetAmmoSlot(Initialize(BulletShooter.LaunchOf(w.alloc.slots[f.slot.value])), f.slot.value)
  {
    var s := BulletShooter.ShootOnce(w.isUpgrading, w.uiIndex, w.alloc);
    if s.spawned.Some? then
      BulletShooter.LaunchedBulletOwnsSlot(w.isUpgrading, w.uiIndex, w.alloc);
      var r := World(s.alloc, s.uiIndex, w.flights + [s.spawned.value], w.isUpgrading);
      assert r.flights[..|w.flights|] == w.flights;
      r
    else
      assert w.flights + [] == w.flights;
      World(s.alloc, s.uiIndex, w.flights, w.isUpgrading)
  }

  function RemoveAt(s: seq<Flight>, k: int): (r: seq<Flight>)
    requires 0 <= k < |s|
    ensures |r| == |s| - 1
    ensures forall i :: 0 <= i < k ==> r[i] == s[i]
    ensures forall i :: k <= i < |r| ==> r[i] == s[i + 1]
  {
    s[..k] + s[k + 1..]
  }

  /** One tick of bullet k: on arrival it gives its slot back and leaves
      the world; otherwise it moves on to its next state. */
  function Advance(w: World, k: int, fr: Frame): (r: World)
    requires Valid(w.alloc)
    requires 0 <= k < |w.flights| && w.flights[k].params.loops != 0
    ensures Valid(r.alloc)
    ensures r.uiIndex == w.uiIndex && r.isUpgrading == w.isUpgrading
    ensures r.alloc.slots == w.alloc.slots && r.alloc.cursor == w.alloc.cursor
    ensures forall s :: 0 <= s < Count(w.alloc) && Some(s) != w.flights[k].slot ==>
      r.alloc.inUse[s] == w.alloc.inUse[s]
    ensures var t := Step(w.flights[k], fr);
      && (t.destroyed ==>
            && |r.flights| == |w.flights| - 1
            && (forall i :: 0 <= i < k ==> r.flights[i] == w.flights[i])
            && (forall i :: k <= i < |r.flights| ==> r.flights[i] == w.flights[i + 1]))
      && (!t.destroyed ==> r.alloc == w.alloc && r.flights == w.flights[k := t.flight])
      && (t.destroyed && t.released.Some? ==> r.alloc == ReturnBullet(w.alloc, t.released.value))
      && (t.destroyed && t.released.None? ==> r.alloc == w.alloc)
      && (t.destroyed && w.flights[k].slot.Some? ==>
            t.released == w.flights[k].slot
            && (0 <= w.flights[k].slot.value < Count(w.alloc) ==> !r.alloc.inUse[w.flights[k].slot.value]))
  {
    var t := Step(w.flights[k], fr);
    if t.destroyed then
      var alloc := if t.released.Some? then ReturnBullet(w.alloc, t.released.value) else w.alloc;
      w.(alloc := alloc, flights := RemoveAt(w.flights, k))
    else
      w.(flights := w.flights[k := t.flight])
  }

  /** The upgrade path: the slot the HUD shows gets a new bullet type and
      is forced free, whatever bullet may still own it. */
  function Upgrade(w: World, newBullet: Descriptor): (r: World)
    requires Valid(w.alloc)
    ensures Valid(r.alloc)
    ensures r == w.(alloc := r.alloc)
    ensures Count(r.alloc) == Count(w.alloc) && r.alloc.cursor == w.alloc.cursor
    ensures 0 <= w.uiIndex < Count(w.alloc) ==>
      r.alloc.slots[w.uiIndex] == newBullet && !r.alloc.inUse[w.uiIndex]
    ensures forall s :: 0 <= s < Count(w.alloc) && s != w.uiIndex ==>
      r.alloc.slots[s] == w.alloc.slots[s] && r.alloc.inUse[s] == w.alloc.inUse[s]
  {
    w.(alloc := ReplaceBullet(w.alloc, w.uiIndex, newBullet))
  }

  // ---------------------------------------------------------------------
  // Preservation
  // ---------------------------------------------------------------------

  /** Firing keeps the invariant: the new bullet owns a slot nobody owned. */
  lemma FirePreserves(w: World)
    requires Owns(w)
    ensures Owns(Fire(w))
    ensures |Fire(w).flights| <= |w.flights| + 1
  {
    var s := BulletShooter.ShootOnce(w.isUpgrading, w.uiIndex, w.alloc);
    BulletShooter.CursorsStayInStep(w.isUpgrading, w.alloc);
    var r := Fire(w);
    if s.spawned.Some? {
      var g := GetNextBullet(w.alloc);
      var f := s.spawned.value;
      var n := |w.flights|;
      assert r.flights == w.flights + [f];
      assert f.slot == Some(g.slotIndex);
      InitializeEstablishes(BulletShooter.LaunchOf(w.alloc.slots[g.slotIndex]));
      assert LoopInv(f);
      forall i | 0 <= i < n
        ensures w.flights[i].slot != f.slot
      {
        assert w.alloc.inUse[w.flights[i].slot.value];
      }
      assert FlightsClaimInUse(r);
      assert DistinctOwners(r.flights);
      forall x | 0 <= x < Count(r.alloc) && r.alloc.inUse[x]
        ensures exists i :: 0 <= i < |r.flights| && r.flights[i].slot == Some(x)
      {
        if x == g.slotIndex {
          assert r.flights[n].slot == Some(x);
        } else {
          assert w.alloc.inUse[x];
          var i :| 0 <= i < n && w.flights[i].slot == Some(x);
          assert r.flights[i].slot == Some(x);
        }
      }
    } else {
      assert r.flights == w.flights + [];
      assert r == w;
    }
  }

  /** A bullet tick keeps the invariant: an arriving bullet frees exactly
      the slot it owned, which nobody else owned, and leaves the world;
      any other tick leaves the allocator alone. */
  lemma AdvancePreserves(w: World, k: int, fr: Frame)
    requires Owns(w)
    requires 0 <= k < |w.flights|
    ensures w.flights[k].params.loops != 0
    ensures Owns(Advance(w, k, fr))
    ensures w.flights[k].slot.Some?
    ensures var r := Advance(w, k, fr);
      var s := w.flights[k].slot.value;
      if Step(w.flights[k], fr).destroyed then
        && |r.flights| == |w.flights| - 1
        && r.alloc == ReturnBullet(w.alloc, s)
        && !r.alloc.inUse[s]
        && (forall i :: 0 <= i < |r.flights| ==> r.flights[i].slot != Some(s))
      else
        r.alloc == w.alloc && |r.flights| == |w.flights|
  {
    var f := w.flights[k];
    var t := Step(f, fr);
    StepPreserves(f, fr);
    var r := Advance(w, k, fr);
    if t.destroyed {
      var s := f.slot.value;
      assert t.released == Some(s);
      var n := |w.flights|;
      forall i | 0 <= i < |r.flights|
        ensures r.flights[i].slot.Some?
        ensures 0 <= r.flights[i].slot.value < Count(r.alloc)
        ensures r.alloc.inUse[r.flights[i].slot.value]
        ensures LoopInv(r.flights[i])
      {
        var j := if i < k then i else i + 1;
        assert r.flights[i] == w.flights[j];
        assert j != k;
        assert w.flights[j].slot != f.slot;
      }
      forall i, j | 0 <= i < j < |r.flights|
        ensures r.flights[i].slot != r.flights[j].slot
      {
        var i' := if i < k then i else i + 1;
        var j' := if j < k then j else j + 1;
        assert r.flights[i] == w.flights[i'] && r.flights[j] == w.flights[j'];
      }
      forall x | 0 <= x < Count(r.alloc) && r.alloc.inUse[x]
        ensures exists i :: 0 <= i < |r.flights| && r.flights[i].slot == Some(x)
      {
        assert x != s && w.alloc.inUse[x];
        var i :| 0 <= i < n && w.flights[i].slot == Some(x);
        assert i != k;
        if i < k {
          assert r.flights[i].slot == Some(x);
        } else {
          assert r.flights[i - 1].slot == Some(x);
        }
      }
    } else {
      assert r.flights == w.flights[k := t.flight];
      forall x | 0 <= x < Count(r.alloc) && r.alloc.inUse[x]
        ensures exists i :: 0 <= i < |r.flights| && r.flights[i].slot == Some(x)
      {
        var i :| 0 <= i < |w.flights| && w.flights[i].slot == Some(x);
        assert r.flights[i].slot == Some(x);
      }
    }
  }

  /** What can happen to the weapon between upgrades: the trigger is
      pulled, or one bullet in flight ticks. */
  datatype Event = Trigger | BulletTick(k: int, fr: Frame)

  /** One event; a tick naming no bullet in flight does nothing. */
  function Apply(w: World, e: Event): World {
    match e
    case Trigger =>
      if Valid(w.alloc) && w.uiIndex >= 0 then Fire(w) else w
    case BulletTick(k, fr) =>
      if Valid(w.alloc) && 0 <= k < |w.flights| && w.flights[k].params.loops != 0
      then Advance(w, k, fr) else w
  }

  function Run(w: World, events: seq<Event>): World
    decreases |events|
  {
    if events == [] then w else Run(Apply(w, events[0]), events[1..])
  }

  /** One event keeps the invariant. */
  lemma ApplyPreserves(w: World, e: Event)
    requires Owns(w)
    ensures Owns(Apply(w, e))
  {
    match e
    case Trigger =>
      FirePreserves(w);
    case BulletTick(k, fr) =>
      if 0 <= k < |w.flights| {
        AdvancePreserves(w, k, fr);
      }
  }

  /** Any run of trigger pulls and bullet ticks keeps the invariant. */
  lemma {:induction false} RunPreserves(w: World, events: seq<Event>)
    requires Owns(w)
    ensures Owns(Run(w, events))
    decreases |events|
  {
    if events != [] {
      ApplyPreserves(w, events[0]);
      RunPreserves(Apply(w, events[0]), events[1..]);
    }
  }

  /** Every world reached from Start by firing and bullet ticks is
      consistent: each in-use slot has exactly one bullet in flight owning
      it, and the HUD shows the allocator's cursor. */
  lemma ReachableOwns(maxSlots: int, d: Descriptor, events: seq<Event>)
    requires Flyable(d)
    ensures Owns(Run(Start(maxSlots, d), events))
  {
    RunPreserves(Start(maxSlots, d), events);
  }

  // ---------------------------------------------------------------------
  // Consequences
  // ---------------------------------------------------------------------

  /** In a consistent world the bullet fired is the one the HUD showed as
      current, it owns a slot no other bullet owns, and the HUD moves on
      in step with the allocator. */
  lemma FireUsesShownSlot(w: World)
    requires Owns(w)
    requires !w.isUpgrading && IsBulletAvailable(w.alloc, w.uiIndex)
    ensures |Fire(w).flights| == |w.flights| + 1
    ensures Fire(w).flights[|w.flights|].slot == Some(w.uiIndex)
    ensures forall i :: 0 <= i < |w.flights| ==> w.flights[i].slot != Some(w.uiIndex)
  {
    BulletShooter.CursorsStayInStep(w.isUpgrading, w.alloc);
    forall i | 0 <= i < |w.flights|
      ensures w.flights[i].slot != Some(w.uiIndex)
    {
      assert w.alloc.inUse[w.flights[i].slot.value];
    }
  }

  /** Once the player dies, shooting is off and firing changes nothing. */
  lemma DeathStopsShooting(w: World, p: PlayerHealth.Player, amount: int, src: PlayerHealth.Point)
    requires Valid(w.alloc) && w.uiIndex >= 0
    requires amount >= p.currentHealth
    ensures var hurt := PlayerHealth.TakeDamageFrom(p, amount, src, false, w.isUpgrading);
      var dead := w.(isUpgrading := hurt.shootingBlocked);
      hurt.died && Fire(dead) == dead
  {
    var hurt := PlayerHealth.TakeDamageFrom(p, amount, src, false, w.isUpgrading);
    var dead := w.(isUpgrading := hurt.shootingBlocked);
    assert dead.flights + [] == dead.flights;
  }

  /** The upgrade path breaks ownership: with one slot, fire, upgrade the
      shown slot while its bullet is still out, fire again, and two bullets
      in flight own slot 0. */
  lemma UpgradeWhileInFlightDoubleOwns(d: Descriptor, upgraded: Descriptor)
    requires Flyable(d)
    ensures var w1 := Fire(Start(1, d));
      var w3 := Fire(Upgrade(w1, upgraded));
      && Owns(w1)
      && |w3.flights| == 2
      && w3.flights[0].slot == Some(0) && w3.flights[1].slot == Some(0)
      && !Owns(w3)
      && !Owns(Upgrade(w1, upgraded))
  {
    var w0 := Start(1, d);
    assert w0.alloc.inUse == [false];
    FirePreserves(w0);
    CursorSlotFirst(w0.alloc);
    var w1 := Fire(w0);
    assert w1.alloc.inUse == [true] && w1.uiIndex == 0 && |w1.flights| == 1;
    var w2 := Upgrade(w1, upgraded);
    assert w2.alloc.inUse == [false] && w2.uiIndex == 0;
    assert !w2.alloc.inUse[w2.flights[0].slot.value];
    CursorSlotFirst(w2.alloc);
    var w3 := Fire(w2);
    assert w3.flights[1].slot == Some(0);
  }

}

=== FILE: bullet_data.dfy ===
/**
 The bullet-type descriptor: the immutable configuration record every other
 component reads (speed, damage, orbit and travel settings).
 Prefabs and UI images are presentation and are not part of the record.
 */
module BulletData {

  datatype Descriptor = Descriptor(
    speed: real,           // forward travel speed
    damage: int,           // damage carried to whatever the bullet hits
    numberOfLoops: int,    // full orbits before the bullet heads home
    verticalOffset: real,  // height of the orbit above its centre
    orbitSpeed: real,      // degrees per second while orbiting
    returnSpeed: real,     // speed of the flight home
    startRadius: real,     // orbit radius during the first loop
    endRadius: real,       // orbit radius reached after the last loop
    travelDistance: real   // forward distance before orbiting starts
  )

  /** A descriptor the flight model can run: its loop count is not zero
      (zero loops would divide by zero in the radius interpolation). */
  predicate Flyable(d: Descriptor) {
    d.numberOfLoops != 0
  }

  /** The field defaults of a freshly created descriptor asset. */
  function Default(): (d: Descriptor)
    ensures d.speed == 20.0 && d.damage == 1
    ensures d.numberOfLoops == 3 && d.verticalOffset == 1.0
    ensures d.orbitSpeed == 180.0 && d.returnSpeed == 10.0
    ensures d.startRadius == 3.0 && d.endRadius == 1.0
    ensures d.travelDistance == 2.0
  {
    Descriptor(20.0, 1, 3, 1.0, 180.0, 10.0, 3.0, 1.0, 2.0)
  }

  /** The default bullet is flyable, its orbit shrinks from loop to loop,
      and its nominal orbit angle, numberOfLoops full turns, takes
      numberOfLoops * 360 / orbitSpeed = 6 seconds at orbitSpeed. The
      actual orbit time also depends on the bearing the orbit starts from. */
  lemma DefaultShape()
    ensures Flyable(Default())
    ensures Default().endRadius < Default().startRadius
    ensures Default().numberOfLoops as real * 360.0 / Default().orbitSpeed == 6.0
  {
  }

}

=== FILE: bullet_shooter.dfy ===
/**
 Firing one bullet: the shooting gate, the HUD rotation, the allocation and
 the launch of a looping bullet that owns the granted slot. Aiming, the
 knockback, the sound and the prefab are presentation and are not modelled.
 */
module BulletShooter {
  import opened Wrappers
  import opened BulletData
  import opened AmmoSlot
  import AmmoUI
  import LoopingBullets

  /** The outcome of one ShootOnce: HUD cursor, allocator, and the bullet
      launched (None when nothing was fired). */
  datatype Shot = Shot(uiIndex: int, alloc: Allocator, spawned: Option<LoopingBullets.Flight>)

  /** The flight parameters a descriptor hands to Initialize; the
      descriptor's speed becomes the forward travel speed. */
  function LaunchOf(d: Descriptor): (p: LoopingBullets.Launch)
    ensures p.travelSpeed == d.speed && p.damage == d.damage && p.loops == d.numberOfLoops
    ensures p.travelDistance == d.travelDistance && p.orbitSpeed == d.orbitSpeed
    ensures p.returnSpeed == d.returnSpeed && p.verticalOffset == d.verticalOffset
    ensures p.startRadius == d.startRadius && p.endRadius == d.endRadius
  {
    LoopingBullets.Launch(d.numberOfLoops, d.verticalOffset, d.orbitSpeed, d.returnSpeed,
                          d.startRadius, d.endRadius, d.travelDistance, d.speed, d.damage)
  }

  /** ShootOnce: nothing while upgrading, nothing when the HUD's current
      slot is taken, nothing when no slot is free; otherwise rotate the HUD,
      take the next slot from the allocator, and launch a bullet built from
      that slot's descriptor that will give the slot back. */
  function ShootOnce(isUpgrading: bool, uiIndex: int, a: Allocator): (s: Shot)
    requires Valid(a) && uiIndex >= 0
    ensures s.spawned.Some? <==> !isUpgrading && IsBulletAvailable(a, uiIndex)
    ensures s.spawned.None? ==> s == Shot(uiIndex, a, None)
    ensures s.spawned.Some? ==>
      var g := GetNextBullet(a);
      && g.bullet.Some?
      && s.uiIndex == AmmoUI.RotateUIToNext(uiIndex, Count(a))
      && s.alloc == g.next
      && s.spawned.value ==
           LoopingBullets.SetAmmoSlot(LoopingBullets.Initialize(LaunchOf(g.bullet.value)), g.slotIndex)
  {
    if isUpgrading then Shot(uiIndex, a, None)
    else if !IsBulletAvailable(a, uiIndex) then Shot(uiIndex, a, None)
    else if !HasAvailableBullet(a) then Shot(uiIndex, a, None)
    else
      var rotated := AmmoUI.RotateUIToNext(uiIndex, Count(a));
      var g := GetNextBullet(a);
      match g.bullet
      case None => Shot(rotated, g.next, None)
      case Some(data) =>
        var flight := LoopingBullets.SetAmmoSlot(LoopingBullets.Initialize(LaunchOf(data)), g.slotIndex);
        Shot(rotated, g.next, Some(flight))
  }

  /** The launched bullet starts travelling forward with zeroed counters,
      owns the slot it was granted, and carries that slot's damage and
      loop count. */
  lemma LaunchedBulletOwnsSlot(isUpgrading: bool, uiIndex: int, a: Allocator)
    requires Valid(a) && uiIndex >= 0
    requires ShootOnce(isUpgrading, uiIndex, a).spawned.Some?
    ensures var s := ShootOnce(isUpgrading, uiIndex, a);
      var f := s.spawned.value;
      && f.phase == LoopingBullets.TravelForward
      && f.traveled == 0.0 && f.angle == 0.0 && f.completedLoops == 0
      && f.slot.Some? && 0 <= f.slot.value < Count(a)
      && !a.inUse[f.slot.value] && s.alloc.inUse[f.slot.value]
      && f.params.damage == a.slots[f.slot.value].damage
      && f.params.loops == a.slots[f.slot.value].numberOfLoops
  {
  }

  /** When the HUD cursor and the allocator cursor agree (they start equal
      and only ShootOnce moves either), the slot fired is the one the HUD
      shows as current, and the two cursors still agree afterwards. */
  lemma CursorsStayInStep(isUpgrading: bool, a: Allocator)
    requires Valid(a)
    ensures var s := ShootOnce(isUpgrading, a.cursor, a);
      && s.uiIndex == s.alloc.cursor
      && (s.spawned.Some? ==> s.spawned.value.slot == Some(a.cursor))
  {
    if !isUpgrading && IsBulletAvailable(a, a.cursor) {
      CursorSlotFirst(a);
    }
  }

}

=== FILE: enemy_ai.dfy ===
/**
 The basic enemy's bookkeeping: health, the upgrade bonus, and what death
 does to its target and to the score. Movement itself is geometry and only
 its "moves or not" decision is modelled.
 */
module EnemyAI {
  import Health

  /** Score awarded for killing a basic enemy. */
  const ScoreValue: int := 100

  datatype Enemy = Enemy(
    speed: real,
    hasTarget: bool,       // false once the target is cleared
    maxHealth: int,
    currentHealth: int
  )

  /** What a hit produced: the enemy afterwards, whether it died, and the
      score it hands to the game manager. */
  datatype Hit = Hit(enemy: Enemy, died: bool, award: int)

  /** Awake: start at full health. */
  function Awake(e: Enemy): (r: Enemy)
    ensures r.currentHealth == r.maxHealth == e.maxHealth
    ensures r.speed == e.speed && r.hasTarget == e.hasTarget
  {
    e.(currentHealth := e.maxHealth)
  }

  function SetTarget(e: Enemy, present: bool): (r: Enemy)
    ensures r.hasTarget == present
    ensures r.(hasTarget := e.hasTarget) == e
  {
    e.(hasTarget := present)
  }

  /** Die: stop chasing and award the score. */
  function Die(e: Enemy): (h: Hit)
    ensures !h.enemy.hasTarget && h.died && h.award == ScoreValue
    ensures h.enemy.(hasTarget := e.hasTarget) == e
  {
    Hit(e.(hasTarget := false), true, ScoreValue)
  }

  /** TakeDamage: health drops to max(current - amount, 0); the enemy dies
      exactly when nothing is left. */
  function TakeDamage(e: Enemy, amount: int): (h: Hit)
    ensures h.enemy.currentHealth >= 0
    ensures h.enemy.currentHealth == 0 <==> e.currentHealth <= amount
    ensures h.enemy.currentHealth > 0 ==> h.enemy.currentHealth == e.currentHealth - amount
    ensures h.died <==> h.enemy.currentHealth <= 0
    ensures h.died ==> !h.enemy.hasTarget && h.award == ScoreValue
    ensures !h.died ==> h.enemy.hasTarget == e.hasTarget && h.award == 0
    ensures h.enemy.(currentHealth := e.currentHealth, hasTarget := e.hasTarget) == e
  {
    var hurt := e.(currentHealth := Health.Damage(e.currentHealth, amount));
    if hurt.currentHealth <= 0 then Die(hurt) else Hit(hurt, false, 0)
  }

  /** UpgradeState: raise the maximum, refill to it, and speed up. */
  function UpgradeState(e: Enemy, healthBonus: int, speedBonus: real): (r: Enemy)
    ensures r.maxHealth == e.maxHealth + healthBonus
    ensures r.currentHealth == r.maxHealth
    ensures r.speed == e.speed + speedBonus
    ensures r.(maxHealth := e.maxHealth, currentHealth := e.currentHealth, speed := e.speed) == e
  {
    var raised := e.maxHealth + healthBonus;
    e.(maxHealth := raised, currentHealth := raised, speed := e.speed + speedBonus)
  }

  /** Update: how far the enemy moves this tick. Without a target it stays
      put; otherwise it moves speed * dt along the flattened direction to
      its target, whose length `flat` (the horizontal share of a unit
      vector) lies in [0, 1]. */
  function Stride(e: Enemy, dt: real, flat: real): (d: real)
    requires dt >= 0.0 && 0.0 <= flat <= 1.0
    ensures !e.hasTarget ==> d == 0.0
    ensures e.speed >= 0.0 ==> 0.0 <= d <= e.speed * dt
    ensures e.hasTarget && flat == 1.0 ==> d == e.speed * dt
  {
    if !e.hasTarget then 0.0
    else
      var full := e.speed * dt;
      assert e.speed >= 0.0 ==> full >= 0.0 && full * flat <= full by {
        if e.speed >= 0.0 {
          assert full * (1.0 - flat) >= 0.0;
        }
      }
      full * flat
  }

  /** After a lethal hit the enemy never moves again, and it has earned 100 points. */
  lemma LethalHitStopsEnemy(e: Enemy, amount: int)
    requires amount >= e.currentHealth
    ensures var h := TakeDamage(e, amount);
      && h.died && h.award == 100
      && forall dt: real, flat: real :: dt >= 0.0 && 0.0 <= flat <= 1.0 ==> Stride(h.enemy, dt, flat) == 0.0
  {
  }

  /** Health lies between zero and the maximum. */
  predicate Healthy(e: Enemy) {
    0 <= e.currentHealth <= e.maxHealth
  }

  /** Awake establishes the health range; damage and upgrades that keep the
      maximum non-negative preserve it. */
  lemma HealthyAlways(e: Enemy, amount: int, healthBonus: int, speedBonus: real)
    requires e.maxHealth >= 0
    ensures Healthy(Awake(e))
    ensures Healthy(e) && amount >= 0 ==> Healthy(TakeDamage(e, amount).enemy)
    ensures e.maxHealth + healthBonus >= 0 ==> Healthy(UpgradeState(e, healthBonus, speedBonus))
  {
  }

  /** An upgraded enemy survives any hit smaller than its new maximum. */
  lemma UpgradedSurvivesSmallHit(e: Enemy, healthBonus: int, speedBonus: real, amount: int)
    requires amount < e.maxHealth + healthBonus
    ensures !TakeDamage(UpgradeState(e, healthBonus, speedBonus), amount).died
  {
  }

}

=== FILE: enemy_spawner.dfy ===
/**
 The enemy spawner's bookkeeping: the live-enemy list, the spawn gate and
 the max-enemies rule. Random intervals and positions are supplied by the
 caller as inputs.
 */
module EnemySpawner {
  import opened Wrappers

  /** The serialized defaults of the limits. */
  const DefaultMaxEnemies: int := 10
  const DefaultMaxEnemiesLimit: int := 20

  datatype Spawner = Spawner(
    maxEnemies: int,
    maxEnemiesLimit: int,
    spawned: seq<int>,       // identities of the enemies it created
    timeUntilSpawn: real,
    enabled: bool,           // a disabled component receives no Update
    wired: bool              // prefab, spawn points and player are all assigned
  )

  /** One Update: the spawner afterwards and the enemy it created, if any. */
  datatype Spawn = Spawn(spawner: Spawner, created: Option<int>)

  /** The enemies of `ids` that still exist, in their original order. */
  function Prune(ids: seq<int>, live: set<int>): (r: seq<int>)
    ensures |r| <= |ids|
    ensures forall x :: x in r <==> x in ids && x in live
    ensures forall k :: 0 <= k < |r| ==> r[k] in live
    ensures forall x :: multiset(r)[x] == (if x in live then multiset(ids)[x] else 0)
  {
    if ids == [] then []
    else
      var rest := Prune(ids[1..], live);
      assert forall x :: x in ids <==> x == ids[0] || x in ids[1..];
      assert ids == [ids[0]] + ids[1..];
      assert multiset(ids) == multiset([ids[0]]) + multiset(ids[1..]);
      if ids[0] in live then [ids[0]] + rest else rest
  }

  /** Pruning a list is pruning its parts and joining them: together with
      the one-element case this pins the result down as the order-keeping
      filter of the list. */
  lemma {:induction false} PruneConcat(a: seq<int>, b: seq<int>, live: set<int>)
    ensures Prune(a + b, live) == Prune(a, live) + Prune(b, live)
    decreases |a|
  {
    if a == [] {
      assert a + b == b;
    } else {
      var ab := a + b;
      assert ab != [] && ab[0] == a[0] && ab[1..] == a[1..] + b;
      PruneConcat(a[1..], b, live);
    }
  }

  /** The one-element case: an enemy is kept exactly when it still exists. */
  lemma PruneOne(x: int, live: set<int>)
    ensures Prune([x], live) == (if x in live then [x] else [])
  {
    assert [x][1..] == [];
  }

  /** SetMaxEnemies: above the limit, fall back to exactly the limit;
      otherwise add `newMax`, without capping the sum. */
  function SetMaxEnemies(s: Spawner, newMax: int): (r: Spawner)
    ensures s.maxEnemies > s.maxEnemiesLimit ==> r.maxEnemies == s.maxEnemiesLimit
    ensures s.maxEnemies <= s.maxEnemiesLimit ==> r.maxEnemies == s.maxEnemies + newMax
    ensures r == s.(maxEnemies := r.maxEnemies)
  {
    if s.maxEnemies > s.maxEnemiesLimit then s.(maxEnemies := s.maxEnemiesLimit)
    else s.(maxEnemies := s.maxEnemies + newMax)
  }

  /** SpawnEnemy: nothing when a reference is missing or the list is full;
      otherwise the new enemy joins the list. */
  function SpawnEnemy(s: Spawner, newEnemy: int): (r: Spawn)
    ensures r.created.Some? <==> s.wired && |s.spawned| < s.maxEnemies
    ensures r.created.Some? ==> r.created.value == newEnemy && r.spawner == s.(spawned := s.spawned + [newEnemy])
    ensures r.created.None? ==> r.spawner == s
  {
    if !s.wired then Spawn(s, None)
    else if |s.spawned| >= s.maxEnemies then Spawn(s, None)
    else Spawn(s.(spawned := s.spawned + [newEnemy]), Some(newEnemy))
  }

  /** Update: forget destroyed enemies, run the timer down by dt, and when
      it has expired and there is room, try to spawn and draw a new delay. */
  function Update(s: Spawner, dt: real, live: set<int>, newEnemy: int, nextDelay: real): (r: Spawn)
    ensures !s.enabled ==> r == Spawn(s, None)
    ensures s.enabled ==>
      var pruned := Prune(s.spawned, live);
      var timer := s.timeUntilSpawn - dt;
      var gate := timer <= 0.0 && |pruned| < s.maxEnemies;
      && (r.created.Some? <==> gate && s.wired)
      && (r.created.Some? ==> r.created.value == newEnemy && r.spawner.spawned == pruned + [newEnemy])
      && (r.created.None? ==> r.spawner.spawned == pruned)
      && r.spawner.timeUntilSpawn == (if gate then nextDelay else timer)
    ensures r.spawner.(spawned := s.spawned, timeUntilSpawn := s.timeUntilSpawn) == s
  {
    if !s.enabled then Spawn(s, None)
    else
      var pruned := s.(spawned := Prune(s.spawned, live), timeUntilSpawn := s.timeUntilSpawn - dt);
      if pruned.timeUntilSpawn <= 0.0 && |pruned.spawned| < pruned.maxEnemies then
        var spawn := SpawnEnemy(pruned, newEnemy);
        Spawn(spawn.spawner.(timeUntilSpawn := nextDelay), spawn.created)
      else Spawn(pruned, None)
  }

  /** An Update only adds to the list while the pruned list is below
      maxEnemies, so it never grows the list beyond maxEnemies (a list
      already longer, after the limit was lowered, can only shrink); every
      entry it keeps, other than a newly created one, still exists. */
  lemma UpdateRespectsMax(s: Spawner, dt: real, live: set<int>, newEnemy: int, nextDelay: real)
    requires s.enabled
    ensures var r := Update(s, dt, live, newEnemy, nextDelay);
      var pruned := |Prune(s.spawned, live)|;
      && (|r.spawner.spawned| == pruned || |r.spawner.spawned| == pruned + 1 <= s.maxEnemies)
      && |r.spawner.spawned| <= (if pruned > s.maxEnemies then pruned else s.maxEnemies)
      && (|s.spawned| <= s.maxEnemies ==> |r.spawner.spawned| <= s.maxEnemies)
      && forall x :: x in r.spawner.spawned && x != newEnemy ==> x in live
  {
  }

  /** The documented intent "up to the limit" does not hold: a spawner
      with room below the limit can be raised past it. */
  lemma SetMaxEnemiesCanPassLimit()
    ensures var s := Spawner(DefaultMaxEnemies, DefaultMaxEnemiesLimit, [], 0.0, true, true);
      SetMaxEnemies(s, 15).maxEnemies == 25 > DefaultMaxEnemiesLimit
  {
  }

  /** The overshoot lasts one call: the next call brings it back to the
      limit, so with a non-negative bonus the value stays below
      limit + bonus once it started at or below the limit. */
  lemma SetMaxEnemiesOvershootBounded(s: Spawner, newMax: int)
    requires newMax >= 0 && s.maxEnemies <= s.maxEnemiesLimit + newMax
    ensures var r := SetMaxEnemies(s, newMax);
      r.maxEnemies <= s.maxEnemiesLimit + newMax
      && (r.maxEnemies > r.maxEnemiesLimit ==> SetMaxEnemies(r, newMax).maxEnemies == r.maxEnemiesLimit)
  {
  }

}

=== FILE: game_manager.dfy ===
/**
 The game manager's bookkeeping: the registry of active enemies, the score,
 the upgrade timer and its latch, and the upgrade round that strengthens
 every registered enemy and raises the spawners' limits.
 Enemies are named by identities; the scene maps each identity that still
 exists to its behaviour component.
 */
module GameManager {
  import EnemyAI
  import ToxicEnemyAI
  import EnemySpawner

  /** Seconds between upgrade rounds. */
  const UpgradeTimerDefault: real := 60.0

  /** The behaviour an enemy object carries. */
  datatype Unit =
    | Basic(basic: EnemyAI.Enemy)
    | Spitter(toxic: ToxicEnemyAI.Toxic)
    | Inert   // an object with neither enemy behaviour

  datatype Manager = Manager(
    activeEnemies: seq<int>,
    score: int,
    upgradeTimer: real,
    upgradeTriggered: bool,
    triggerShown: bool,                   // the upgrade pickup is active
    spawners: seq<EnemySpawner.Spawner>
  )

  /** The identities of the objects that still exist, and their behaviour. */
  type Scene = map<int, Unit>

  predicate NoDuplicates(s: seq<int>) {
    forall i, j :: 0 <= i < j < |s| ==> s[i] != s[j]
  }

  /** A manager as the scene creates it. */
  function Fresh(spawners: seq<EnemySpawner.Spawner>): (m: Manager)
    ensures m.score == 0 && m.upgradeTimer == UpgradeTimerDefault && !m.upgradeTriggered
    ensures m.activeEnemies == [] && m.spawners == spawners && !m.triggerShown
    ensures NoDuplicates(m.activeEnemies)
  {
    Manager([], 0, UpgradeTimerDefault, false, false, spawners)
  }

  /** RegisterEnemy: add the enemy unless it is already listed. */
  function RegisterEnemy(m: Manager, enemy: int): (r: Manager)
    ensures enemy in m.activeEnemies ==> r == m
    ensures enemy !in m.activeEnemies ==> r == m.(activeEnemies := m.activeEnemies + [enemy])
    ensures NoDuplicates(m.activeEnemies) ==> NoDuplicates(r.activeEnemies)
    ensures enemy in r.activeEnemies
  {
    if enemy in m.activeEnemies then m else m.(activeEnemies := m.activeEnemies + [enemy])
  }

  /** Position of the first occurrence of `x` in `s`. */
  function FirstIndex(s: seq<int>, x: int): (k: nat)
    requires x in s
    ensures k < |s| && s[k] == x && x !in s[..k]
  {
    if s[0] == x then 0
    else
      var k := FirstIndex(s[1..], x) + 1;
      assert s[..k] == [s[0]] + s[1..][..k - 1];
      k
  }

  /** `s` without its first occurrence of `x`, the rest in order. */
  function RemoveFirst(s: seq<int>, x: int): (r: seq<int>)
    requires x in s
    ensures |r| == |s| - 1
    ensures forall y :: y != x ==> (y in r <==> y in s)
    ensures NoDuplicates(s) ==> NoDuplicates(r) && x !in r
    ensures exists k :: 0 <= k < |s| && s[k] == x && x !in s[..k] && r == s[..k] + s[k + 1..]
  {
    var k := FirstIndex(s, x);
    var r := s[..k] + s[k + 1..];
    assert forall i :: 0 <= i < |r| ==> r[i] == s[if i < k then i else i + 1];
    assert forall y :: y in s <==> y in s[..k] || y == s[k] || y in s[k + 1..] by {
      assert s == s[..k] + [s[k]] + s[k + 1..];
    }
    r
  }

  /** UnregisterEnemy: remove the enemy if listed, otherwise nothing. */
  function UnregisterEnemy(m: Manager, enemy: int): (r: Manager)
    ensures enemy !in m.activeEnemies ==> r == m
    ensures forall y :: y != enemy ==> (y in r.activeEnemies <==> y in m.activeEnemies)
    ensures NoDuplicates(m.activeEnemies) ==> NoDuplicates(r.activeEnemies) && enemy !in r.activeEnemies
    ensures r == m.(activeEnemies := r.activeEnemies)
    ensures enemy in m.activeEnemies ==>
      var s := m.activeEnemies;
      exists k :: 0 <= k < |s| && s[k] == enemy && enemy !in s[..k] && r.activeEnemies == s[..k] + s[k + 1..]
  {
    if enemy in m.activeEnemies then m.(activeEnemies := RemoveFirst(m.activeEnemies, enemy)) else m
  }

  /** AddScore: add exactly `amount`. */
  function AddScore(m: Manager, amount: int): (r: Manager)
    ensures GetCurrentScore(r) - GetCurrentScore(m) == amount
    ensures r.(score := m.score) == m
  {
    m.(score := m.score + amount)
  }

  function GetCurrentScore(m: Manager): int {
    m.score
  }

  /** Scores accumulate: two additions equal one of their sum, and adding
      nothing changes nothing. */
  lemma AddScoreComposes(m: Manager, a: int, b: int)
    ensures AddScore(AddScore(m, a), b) == AddScore(m, a + b)
    ensures AddScore(m, 0) == m
  {
  }

  /** Update: while the latch is clear the timer runs down by dt; once it
      reaches 0 the latch is set, the pickup is shown and every spawner is
      disabled. While the latch is set nothing changes. */
  function Update(m: Manager, dt: real): (r: Manager)
    ensures m.upgradeTriggered ==> r == m
    ensures !m.upgradeTriggered ==> r.upgradeTimer == m.upgradeTimer - dt
    ensures r.upgradeTriggered <==> m.upgradeTriggered || m.upgradeTimer - dt <= 0.0
    ensures !m.upgradeTriggered && r.upgradeTriggered ==>
      r.triggerShown && |r.spawners| == |m.spawners| &&
      forall k :: 0 <= k < |r.spawners| ==> r.spawners[k] == m.spawners[k].(enabled := false)
    ensures !r.upgradeTriggered ==> r == m.(upgradeTimer := r.upgradeTimer)
    ensures r.score == m.score && r.activeEnemies == m.activeEnemies
  {
    if m.upgradeTriggered then m
    else
      var timer := m.upgradeTimer - dt;
      if timer <= 0.0 then
        m.(upgradeTimer := timer, upgradeTriggered := true, triggerShown := true,
           spawners := seq(|m.spawners|, k requires 0 <= k < |m.spawners| => m.spawners[k].(enabled := false)))
      else m.(upgradeTimer := timer)
  }

  /** ResetUpgradeTimer: a fresh 60 seconds and the latch cleared. */
  function ResetUpgradeTimer(m: Manager): (r: Manager)
    ensures r.upgradeTimer == UpgradeTimerDefault && !r.upgradeTriggered
    ensures r.(upgradeTimer := m.upgradeTimer, upgradeTriggered := m.upgradeTriggered) == m
  {
    m.(upgradeTimer := UpgradeTimerDefault, upgradeTriggered := false)
  }

  function UpgradeUnit(u: Unit, healthBonus: int, speedBonus: real): Unit {
    match u
    case Basic(e) => Basic(EnemyAI.UpgradeState(e, healthBonus, speedBonus))
    case Spitter(t) => Spitter(ToxicEnemyAI.UpgradeState(t, healthBonus, speedBonus))
    case Inert => Inert
  }

  /** Apply the upgrade to each listed identity that still exists, in list order. */
  function UpgradeEach(ids: seq<int>, scene: Scene, healthBonus: int, speedBonus: real): (r: Scene)
    ensures r.Keys == scene.Keys
  {
    if ids == [] then scene
    else
      var next := if ids[0] in scene then scene[ids[0] := UpgradeUnit(scene[ids[0]], healthBonus, speedBonus)] else scene;
      UpgradeEach(ids[1..], next, healthBonus, speedBonus)
  }

  /** UpgradeAllEnemies: upgrade every registered enemy that still exists
      and zero the timer. */
  function UpgradeAllEnemies(m: Manager, scene: Scene, healthBonus: int, speedBonus: real): (r: (Manager, Scene))
    ensures r.0 == m.(upgradeTimer := 0.0)
    ensures r.1.Keys == scene.Keys
    ensures NoDuplicates(m.activeEnemies) ==>
      forall x :: x in scene ==>
        r.1[x] == (if x in m.activeEnemies then UpgradeUnit(scene[x], healthBonus, speedBonus) else scene[x])
  {
    if NoDuplicates(m.activeEnemies) then
      UpgradeEachOnce(m.activeEnemies, scene, healthBonus, speedBonus);
      (m.(upgradeTimer := 0.0), UpgradeEach(m.activeEnemies, scene, healthBonus, speedBonus))
    else
      (m.(upgradeTimer := 0.0), UpgradeEach(m.activeEnemies, scene, healthBonus, speedBonus))
  }

  /** With no duplicates in the list, each listed enemy is upgraded exactly
      once and every other object is untouched. */
  lemma {:induction false} UpgradeEachOnce(ids: seq<int>, scene: Scene, healthBonus: int, speedBonus: real)
    requires NoDuplicates(ids)
    ensures var r := UpgradeEach(ids, scene, healthBonus, speedBonus);
      forall x :: x in scene ==>
        r[x] == (if x in ids then UpgradeUnit(scene[x], healthBonus, speedBonus) else scene[x])
  {
    if ids != [] {
      var next := if ids[0] in scene then scene[ids[0] := UpgradeUnit(scene[ids[0]], healthBonus, speedBonus)] else scene;
      assert NoDuplicates(ids[1..]);
      UpgradeEachOnce(ids[1..], next, healthBonus, speedBonus);
      assert ids[0] !in ids[1..];
      assert forall x :: x in ids <==> x == ids[0] || x in ids[1..];
    }
  }

  /** OnUpgradeResume: upgrade every enemy, raise every spawner's limit,
      re-enable the spawners, restart the timer and hide the pickup. */
  function OnUpgradeResume(m: Manager, scene: Scene, healthBonus: int, speedBonus: real,
                           maxEnemiesBonus: int): (r: (Manager, Scene))
    ensures r.0.upgradeTimer == UpgradeTimerDefault && !r.0.upgradeTriggered && !r.0.triggerShown
    ensures |r.0.spawners| == |m.spawners|
    ensures forall k :: 0 <= k < |m.spawners| ==>
      r.0.spawners[k] == EnemySpawner.SetMaxEnemies(m.spawners[k], maxEnemiesBonus).(enabled := true)
    ensures r.0.score == m.score && r.0.activeEnemies == m.activeEnemies
    ensures r.1 == UpgradeAllEnemies(m, scene, healthBonus, speedBonus).1
  {
    var (upgraded, scene') := UpgradeAllEnemies(m, scene, healthBonus, speedBonus);
    var spawners := seq(|m.spawners|, k requires 0 <= k < |m.spawners| =>
                        EnemySpawner.SetMaxEnemies(m.spawners[k], maxEnemiesBonus).(enabled := true));
    (ResetUpgradeTimer(upgraded.(spawners := spawners)).(triggerShown := false), scene')
  }

  /** A change to the registry: a registration or a removal. */
  datatype RegistryOp = Register(id: int) | Unregister(id: int)

  function ApplyRegistry(m: Manager, ops: seq<RegistryOp>): Manager
    decreases |ops|
  {
    if ops == [] then m
    else
      var next := match ops[0]
        case Register(id) => RegisterEnemy(m, id)
        case Unregister(id) => UnregisterEnemy(m, id);
      ApplyRegistry(next, ops[1..])
  }

  /** From a fresh manager, any sequence of registrations and removals keeps
      the registry free of duplicates, and touches nothing but the registry. */
  lemma {:induction false} RegistryStaysDuplicateFree(m: Manager, ops: seq<RegistryOp>)
    requires NoDuplicates(m.activeEnemies)
    ensures var r := ApplyRegistry(m, ops);
      NoDuplicates(r.activeEnemies) && r == m.(activeEnemies := r.activeEnemies)
    decreases |ops|
  {
    if ops != [] {
      var next := match ops[0]
        case Register(id) => RegisterEnemy(m, id)
        case Unregister(id) => UnregisterEnemy(m, id);
      RegistryStaysDuplicateFree(next, ops[1..]);
    }
  }

  /** A full upgrade round: once the timer runs out the manager latches
      and stops counting; after the resume the clock runs again from 60. */
  lemma UpgradeRound(m: Manager, dt: real, scene: Scene, hb: int, sb: real, mb: int)
    requires !m.upgradeTriggered && m.upgradeTimer - dt <= 0.0
    ensures var latched := Update(m, dt);
      latched.upgradeTriggered && Update(latched, dt) == latched
      && var resumed := OnUpgradeResume(latched, scene, hb, sb, mb).0;
      Update(resumed, dt).upgradeTimer == UpgradeTimerDefault - dt
  {
  }

  /** Killing a basic enemy is worth 100 points, a toxic one 1000. */
  lemma KillScores(m: Manager, e: EnemyAI.Enemy, t: ToxicEnemyAI.Toxic, amount: int)
    requires amount >= e.currentHealth && amount >= t.currentHealth
    ensures GetCurrentScore(AddScore(m, EnemyAI.TakeDamage(e, amount).award)) == m.score + 100
    ensures GetCurrentScore(AddScore(m, ToxicEnemyAI.TakeDamage(t, amount).award)) == m.score + 1000
  {
  }

}

=== FILE: health.dfy ===
/**
 The health arithmetic: damage clamps at zero (used by both enemies and the
 player) and healing caps at the maximum (used by the player).
 */
module Health {

  /** Health left after taking `amount` damage: never below zero. */
  function Damage(current: int, amount: int): (r: int)
    ensures r >= 0
    ensures r == 0 <==> current <= amount
    ensures r > 0 ==> r == current - amount
  {
    if current - amount > 0 then current - amount else 0
  }

  /** Health after healing `amount`: never above `maxHealth`. */
  function Heal(current: int, amount: int, maxHealth: int): (r: int)
    ensures r <= maxHealth
    ensures r == maxHealth <==> current + amount >= maxHealth
    ensures r < maxHealth ==> r == current + amount
  {
    if current + amount < maxHealth then current + amount else maxHealth
  }

}

=== FILE: looping_bullets.dfy ===
/**
 The looping bullet's flight: travel forward, orbit the player with a
 shrinking radius for a number of loops, then fly home and give its ammo
 slot back. Positions are abstract: each tick is described by a Frame that
 says what the geometry would have reported (entry radius and angle when
 the orbit starts, distance to the return point after this tick's move).
 */
module LoopingBullets {
  import opened Wrappers

  datatype Phase = TravelForward | Orbiting | Returning

  /** The parameters handed over by Initialize. */
  datatype Launch = Launch(
    loops: int,
    verticalOffset: real,
    orbitSpeed: real,
    returnSpeed: real,
    startRadius: real,
    endRadius: real,
    travelDistance: real,
    travelSpeed: real,
    damage: int
  )

  /** One bullet in flight: its parameters, its phase and counters, and the
      ammo slot it must give back (None until SetAmmoSlot is called). */
  datatype Flight = Flight(
    params: Launch,
    phase: Phase,
    traveled: real,
    angle: real,
    radius: real,
    completedLoops: int,
    slot: Option<int>
  )

  /** What the scene reports for one tick. */
  datatype Frame = Frame(
    dt: real,                 // seconds since the previous tick
    centerPresent: bool,      // the orbit centre still exists
    targetPresent: bool,      // the return target still exists
    entryRadius: real,        // bullet's distance from the centre after moving
    entryAngle: real,         // bullet's bearing (degrees) around the centre
    distanceToTarget: real    // distance to the return target after moving
  )

  /** What a tick produced: the next state, the slot given back (if any)
      and whether the bullet asked to be destroyed. */
  datatype Tick = Tick(flight: Flight, released: Option<int>, destroyed: bool)

  /** How fast the current radius approaches its per-loop target. */
  const OrbitEnterSpeed: real := 5.0
  /** Arrival distance of the flight home. */
  const ArrivalDistance: real := 0.1
  const FullTurn: real := 360.0

  function Rank(p: Phase): nat {
    match p
    case TravelForward => 0
    case Orbiting => 1
    case Returning => 2
  }

  function Clamp01(t: real): (r: real)
    ensures 0.0 <= r <= 1.0
    ensures 0.0 <= t <= 1.0 ==> r == t
  {
    if t < 0.0 then 0.0 else if t > 1.0 then 1.0 else t
  }

  /** Linear interpolation with the parameter clamped to [0, 1]. */
  function Lerp(a: real, b: real, t: real): (r: real)
    ensures a <= b ==> a <= r <= b
    ensures b <= a ==> b <= r <= a
  {
    var d := b - a;
    var c := Clamp01(t);
    StepBetween(a, d, c);
    a + d * c
  }

  /** Moving from `a` by a fraction c in [0, 1] of `d` stays between a and a + d. */
  lemma StepBetween(a: real, d: real, c: real)
    requires 0.0 <= c <= 1.0
    ensures d >= 0.0 ==> a <= a + d * c <= a + d
    ensures d <= 0.0 ==> a + d <= a + d * c <= a
  {
    if d >= 0.0 {
      NonNegProduct(d, c);
      NonNegProduct(d, 1.0 - c);
    } else {
      NonNegProduct(-d, c);
      NonNegProduct(-d, 1.0 - c);
    }
  }

  lemma NonNegProduct(x: real, y: real)
    requires x >= 0.0 && y >= 0.0
    ensures x * y >= 0.0
  {
  }

  /** A ratio whose numerator is at least its positive denominator is at least 1. */
  lemma RatioAtLeastOne(x: real, y: real)
    requires x >= y > 0.0
    ensures x / y >= 1.0
  {
    assert x / y * y == x;
  }

  /** Initialize: a fresh bullet travelling forward with every counter at zero. */
  function Initialize(params: Launch): (f: Flight)
    ensures f.params == params
    ensures f.phase == TravelForward
    ensures f.traveled == 0.0 && f.angle == 0.0 && f.completedLoops == 0
    ensures f.slot.None?
  {
    Flight(params, TravelForward, 0.0, 0.0, 0.0, 0, None)
  }

  /** SetAmmoSlot: remember which slot to give back on arrival. */
  function SetAmmoSlot(f: Flight, index: int): (g: Flight)
    ensures g.slot == Some(index)
    ensures g.(slot := f.slot) == f
  {
    f.(slot := Some(index))
  }

  /** The radius the orbit is heading for during the current loop: the
      start radius on the first loop, moving to the end radius as loops complete. */
  function TargetRadius(p: Launch, completedLoops: int): (r: real)
    requires p.loops != 0
    ensures p.startRadius <= p.endRadius ==> p.startRadius <= r <= p.endRadius
    ensures p.endRadius <= p.startRadius ==> p.endRadius <= r <= p.startRadius
    ensures completedLoops <= 0 && p.loops > 0 ==> r == p.startRadius
    ensures completedLoops >= p.loops > 0 ==> r == p.endRadius
  {
    var t := completedLoops as real / p.loops as real;
    if completedLoops >= p.loops > 0 then
      RatioAtLeastOne(completedLoops as real, p.loops as real);
      Lerp(p.startRadius, p.endRadius, t)
    else
      Lerp(p.startRadius, p.endRadius, t)
  }

  /** TravelForward: advance by travelSpeed * dt; once the distance is
      covered, start orbiting from the bullet's current bearing and radius. */
  function TravelStep(f: Flight, fr: Frame): (g: Flight)
    requires f.phase == TravelForward
    ensures g.traveled == f.traveled + f.params.travelSpeed * fr.dt
    ensures g.phase == Orbiting <==> g.traveled >= f.params.travelDistance
    ensures g.phase != Orbiting ==> g == f.(traveled := g.traveled)
    ensures g.phase == Orbiting ==>
      g == f.(traveled := g.traveled, phase := Orbiting, radius := fr.entryRadius, angle := fr.entryAngle)
  {
    var traveled := f.traveled + f.params.travelSpeed * fr.dt;
    if traveled >= f.params.travelDistance then
      f.(traveled := traveled, radius := fr.entryRadius, angle := fr.entryAngle, phase := Orbiting)
    else
      f.(traveled := traveled)
  }

  /** OrbitAroundPlayer: turn by orbitSpeed * dt and ease the radius toward
      its per-loop target; each time the angle reaches 360 it is wrapped
      once and a loop is counted, and the last loop sends the bullet home. */
  function OrbitStep(f: Flight, fr: Frame): (g: Flight)
    requires f.phase == Orbiting && f.params.loops != 0
    ensures var turned := f.angle + f.params.orbitSpeed * fr.dt;
      var wrapped := turned >= FullTurn;
      && g.angle == (if wrapped then turned - FullTurn else turned)
      && g.completedLoops == (if wrapped then f.completedLoops + 1 else f.completedLoops)
      && (g.phase == Returning <==> wrapped && g.completedLoops >= f.params.loops)
      && (g.phase != Returning ==> g.phase == Orbiting)
    ensures var target := TargetRadius(f.params, f.completedLoops);
      (f.radius <= target ==> f.radius <= g.radius <= target)
      && (target <= f.radius ==> target <= g.radius <= f.radius)
    ensures g.params == f.params && g.slot == f.slot && g.traveled == f.traveled
  {
    var turned := f.angle + f.params.orbitSpeed * fr.dt;
    var radius := Lerp(f.radius, TargetRadius(f.params, f.completedLoops), fr.dt * OrbitEnterSpeed);
    if turned >= FullTurn then
      var loops := f.completedLoops + 1;
      f.(angle := turned - FullTurn, radius := radius, completedLoops := loops,
         phase := if loops >= f.params.loops then Returning else Orbiting)
    else
      f.(angle := turned, radius := radius)
  }

  /** ReturnToPlayer: on arrival (closer than 0.1) give the slot back, if
      one was set, and ask to be destroyed; otherwise keep flying home. */
  function ReturnStep(f: Flight, fr: Frame): (t: Tick)
    requires f.phase == Returning
    ensures t.flight == f
    ensures t.destroyed <==> fr.distanceToTarget < ArrivalDistance
    ensures t.released.Some? <==> t.destroyed && f.slot.Some?
    ensures t.released.Some? ==> t.released == f.slot
  {
    if fr.distanceToTarget < ArrivalDistance then Tick(f, f.slot, true)
    else Tick(f, None, false)
  }

  /** Update: one tick. Nothing at all happens while the orbit centre or
      the return target is missing; otherwise the current phase acts. */
  function Step(f: Flight, fr: Frame): (t: Tick)
    requires f.params.loops != 0
    ensures !(fr.centerPresent && fr.targetPresent) ==> t == Tick(f, None, false)
    ensures Rank(f.phase) <= Rank(t.flight.phase) <= Rank(f.phase) + 1
    ensures t.flight.params == f.params && t.flight.slot == f.slot
    ensures t.destroyed ==> f.phase == Returning && fr.distanceToTarget < ArrivalDistance
    ensures t.released.Some? ==> t.destroyed && t.released == f.slot
    ensures (f.phase == Returning && fr.centerPresent && fr.targetPresent &&
             fr.distanceToTarget < ArrivalDistance) ==> t.destroyed && t.released == f.slot
    ensures t.flight.completedLoops != f.completedLoops ==>
      f.phase == Orbiting && t.flight.completedLoops == f.completedLoops + 1
    ensures fr.centerPresent && fr.targetPresent && f.phase == TravelForward ==>
      t == Tick(TravelStep(f, fr), None, false)
    ensures fr.centerPresent && fr.targetPresent && f.phase == Orbiting ==>
      t == Tick(OrbitStep(f, fr), None, false)
    ensures fr.centerPresent && fr.targetPresent && f.phase == Returning ==>
      t == ReturnStep(f, fr)
  {
    if !fr.centerPresent || !fr.targetPresent then Tick(f, None, false)
    else
      match f.phase
      case TravelForward => Tick(TravelStep(f, fr), None, false)
      case Orbiting => Tick(OrbitStep(f, fr), None, false)
      case Returning => ReturnStep(f, fr)
  }

  // ---------------------------------------------------------------------
  // Reachable-state invariant and multi-tick behaviour
  // ---------------------------------------------------------------------

  function Max(a: int, b: int): int {
    if a >= b then a else b
  }

  /** The loop counter is 0 before orbiting, stays below the loop count
      while orbiting, and equals it (at least one loop) once heading home. */
  predicate LoopInv(f: Flight) {
    && f.params.loops != 0
    && (f.phase == TravelForward ==> f.completedLoops == 0)
    && (f.phase == Orbiting ==> 0 <= f.completedLoops < Max(f.params.loops, 1))
    && (f.phase == Returning ==> f.completedLoops == Max(f.params.loops, 1))
  }

  lemma InitializeEstablishes(p: Launch)
    requires p.loops != 0
    ensures LoopInv(Initialize(p))
  {
  }

  /** Every tick keeps the loop invariant: in particular a bullet heads
      home having completed exactly numberOfLoops loops. */
  lemma StepPreserves(f: Flight, fr: Frame)
    requires LoopInv(f)
    ensures LoopInv(Step(f, fr).flight)
  {
  }

  /** The outcome of a run of ticks: the last state, whether the bullet
      still exists, and the slots it gave back along the way. */
  datatype Log = Log(last: Flight, alive: bool, releases: seq<int>)

  /** Run the ticks in order until the bullet is destroyed. */
  function Fly(f: Flight, frames: seq<Frame>): Log
    requires f.params.loops != 0
    decreases |frames|
  {
    if frames == [] then Log(f, true, [])
    else
      var t := Step(f, frames[0]);
      var rel := if t.released.Some? then [t.released.value] else [];
      if t.destroyed then Log(t.flight, false, rel)
      else
        var rest := Fly(t.flight, frames[1..]);
        Log(rest.last, rest.alive, rel + rest.releases)
  }

  /** Over any run: phases never move backwards, the slot is given back at
      most once, only the bullet's own slot, and only when it is destroyed. */
  lemma {:induction false} FlyReleasesOnce(f: Flight, frames: seq<Frame>)
    requires f.params.loops != 0
    ensures var log := Fly(f, frames);
      && Rank(f.phase) <= Rank(log.last.phase)
      && |log.releases| <= 1
      && (|log.releases| == 1 ==> !log.alive && f.slot == Some(log.releases[0]))
      && (log.alive ==> log.releases == [])
      && log.last.slot == f.slot
    decreases |frames|
  {
    if frames != [] {
      var t := Step(f, frames[0]);
      if !t.destroyed {
        assert t.released.None?;
        FlyReleasesOnce(t.flight, frames[1..]);
      }
    }
  }

  /** Over any run the loop invariant holds at the end. */
  lemma {:induction false} FlyPreserves(f: Flight, frames: seq<Frame>)
    requires LoopInv(f)
    ensures LoopInv(Fly(f, frames).last)
    decreases |frames|
  {
    if frames != [] {
      StepPreserves(f, frames[0]);
      var t := Step(f, frames[0]);
      if !t.destroyed {
        FlyPreserves(t.flight, frames[1..]);
      }
    }
  }

}

=== FILE: player_health.dfy ===
/**
 The player's health: start full, damage clamped at zero, healing capped at
 the maximum, and death switching shooting off. Health bar, sound, flash,
 defeat window and time scale are presentation and are not modelled.
 */
module PlayerHealth {
  import Health

  /** The serialized default maximum health. */
  const DefaultMaxHealth: int := 100

  datatype Player = Player(maxHealth: int, currentHealth: int)

  /** A point in the world; only passed along, never used for health. */
  datatype Point = Point(x: real, y: real, z: real)

  /** What a hit produced: the player afterwards, whether Die ran, and the
      value of the shooting-disabled flag afterwards. */
  datatype Hurt = Hurt(player: Player, died: bool, shootingBlocked: bool)

  /** Start: health begins at the maximum. */
  function Start(p: Player): (r: Player)
    ensures r.currentHealth == r.maxHealth == p.maxHealth
  {
    p.(currentHealth := p.maxHealth)
  }

  /** TakeDamage(amount, damageSource, ignoreKnockback): health becomes
      max(current - amount, 0); Die runs when nothing is left, and Die sets
      the shooting-disabled flag. The damage source and knockback switch do
      not affect health. */
  function TakeDamageFrom(p: Player, amount: int, damageSource: Point, ignoreKnockback: bool,
                          shootingBlocked: bool): (h: Hurt)
    ensures h.player.maxHealth == p.maxHealth
    ensures h.player.currentHealth >= 0
    ensures h.player.currentHealth == 0 <==> p.currentHealth <= amount
    ensures h.player.currentHealth > 0 ==> h.player.currentHealth == p.currentHealth - amount
    ensures h.died <==> h.player.currentHealth <= 0
    ensures h.shootingBlocked <==> shootingBlocked || h.died
  {
    var left := Health.Damage(p.currentHealth, amount);
    var died := left <= 0;
    Hurt(p.(currentHealth := left), died, shootingBlocked || died)
  }

  /** TakeDamage(amount): the same damage, from a point in front of the player. */
  function TakeDamage(p: Player, amount: int, inFront: Point, shootingBlocked: bool): (h: Hurt)
    ensures forall src: Point, ignore: bool ::
      h == TakeDamageFrom(p, amount, src, ignore, shootingBlocked)
  {
    TakeDamageFrom(p, amount, inFront, false, shootingBlocked)
  }

  /** Heal: health becomes min(current + amount, maxHealth). */
  function Heal(p: Player, amount: int): (r: Player)
    ensures r.maxHealth == p.maxHealth
    ensures r.currentHealth <= r.maxHealth
    ensures r.currentHealth == r.maxHealth <==> p.currentHealth + amount >= p.maxHealth
    ensures r.currentHealth < r.maxHealth ==> r.currentHealth == p.currentHealth + amount
  {
    p.(currentHealth := Health.Heal(p.currentHealth, amount, p.maxHealth))
  }

  /** Health stays within [0, maxHealth] under damage and healing, given a
      non-negative maximum and non-negative amounts. */
  predicate InRange(p: Player) {
    0 <= p.currentHealth <= p.maxHealth
  }

  lemma HealthStaysInRange(p: Player, amount: int, src: Point, ignore: bool, blocked: bool)
    requires InRange(p) && amount >= 0
    ensures InRange(TakeDamageFrom(p, amount, src, ignore, blocked).player)
    ensures InRange(Heal(p, amount))
  {
  }

  /** Start establishes the range for any non-negative maximum. */
  lemma StartInRange(p: Player)
    requires p.maxHealth >= 0
    ensures InRange(Start(p))
  {
  }

  /** A change to the player's health during play. */
  datatype Change = Damaged(amount: int) | Healed(amount: int)

  function Apply(p: Player, c: Change): Player {
    match c
    case Damaged(amount) => TakeDamage(p, amount, Point(0.0, 0.0, 0.0), false).player
    case Healed(amount) => Heal(p, amount)
  }

  function Replay(p: Player, changes: seq<Change>): Player
    decreases |changes|
  {
    if changes == [] then p else Replay(Apply(p, changes[0]), changes[1..])
  }

  /** From Start, any run of non-negative hits and heals keeps health within
      [0, maxHealth] and never alters the maximum. */
  lemma {:induction false} ReplayInRange(p: Player, changes: seq<Change>)
    requires InRange(p)
    requires forall k :: 0 <= k < |changes| ==> changes[k].amount >= 0
    ensures InRange(Replay(p, changes)) && Replay(p, changes).maxHealth == p.maxHealth
    decreases |changes|
  {
    if changes != [] {
      HealthStaysInRange(p, changes[0].amount, Point(0.0, 0.0, 0.0), false, false);
      ReplayInRange(Apply(p, changes[0]), changes[1..]);
    }
  }

  /** The upgrade pickup heals by the full maximum: that always refills. */
  lemma UpgradeHealRefills(p: Player)
    requires p.currentHealth >= 0
    ensures Heal(p, p.maxHealth).currentHealth == p.maxHealth
  {
  }

}

=== FILE: toxic_enemy_ai.dfy ===
/**
 The toxic (spitting) enemy's bookkeeping: health, upgrades, death, and the
 chase-or-attack decision with its fire cooldown. The ballistic shot and
 all movement are geometry; only whether it chases or fires is modelled.
 */
module ToxicEnemyAI {
  import Health

  /** Score awarded for killing a toxic enemy. */
  const ScoreValue: int := 1000

  datatype Toxic = Toxic(
    maxHealth: int,
    currentHealth: int,
    moveSpeed: real,
    hasPlayer: bool,       // false while no player reference is held
    chaseDistance: real,   // farther than this it chases, otherwise it attacks
    fireRate: real,        // seconds between shots
    fireCooldown: real     // seconds until the next shot may fire
  )

  datatype Hit = Hit(enemy: Toxic, died: bool, award: int)

  /** One Update: the enemy afterwards, whether it chased, whether it fired. */
  datatype Act = Act(enemy: Toxic, chased: bool, fired: bool)

  /** The serialized defaults: chase beyond 10, move at 3, fire every 2 s;
      the cooldown field starts at 0, so the first attack fires at once. */
  function Fresh(maxHealth: int): (t: Toxic)
    ensures t.chaseDistance == 10.0 && t.moveSpeed == 3.0 && t.fireRate == 2.0
    ensures t.fireCooldown == 0.0 && !t.hasPlayer && t.maxHealth == maxHealth
  {
    Toxic(maxHealth, 0, 3.0, false, 10.0, 2.0, 0.0)
  }

  /** Awake: full health, and pick up the player if none is held yet and
      one exists in the scene. */
  function Awake(t: Toxic, playerInScene: bool): (r: Toxic)
    ensures r.currentHealth == r.maxHealth == t.maxHealth
    ensures r.hasPlayer <==> t.hasPlayer || playerInScene
    ensures r.(currentHealth := t.currentHealth, hasPlayer := t.hasPlayer) == t
  {
    t.(currentHealth := t.maxHealth, hasPlayer := t.hasPlayer || playerInScene)
  }

  /** Die: drop the player reference and award the score. */
  function Die(t: Toxic): (h: Hit)
    ensures !h.enemy.hasPlayer && h.died && h.award == ScoreValue
    ensures h.enemy.(hasPlayer := t.hasPlayer) == t
  {
    Hit(t.(hasPlayer := false), true, ScoreValue)
  }

  /** TakeDamage: clamp at zero and die when nothing is left. */
  function TakeDamage(t: Toxic, amount: int): (h: Hit)
    ensures h.enemy.currentHealth >= 0
    ensures h.enemy.currentHealth == 0 <==> t.currentHealth <= amount
    ensures h.enemy.currentHealth > 0 ==> h.enemy.currentHealth == t.currentHealth - amount
    ensures h.died <==> h.enemy.currentHealth <= 0
    ensures h.died ==> !h.enemy.hasPlayer && h.award == ScoreValue
    ensures !h.died ==> h.enemy.hasPlayer == t.hasPlayer && h.award == 0
    ensures h.enemy.(currentHealth := t.currentHealth, hasPlayer := t.hasPlayer) == t
  {
    var hurt := t.(currentHealth := Health.Damage(t.currentHealth, amount));
    if hurt.currentHealth <= 0 then Die(hurt) else Hit(hurt, false, 0)
  }

  /** UpgradeState: raise the maximum, refill to it, and speed up. */
  function UpgradeState(t: Toxic, healthBonus: int, speedBonus: real): (r: Toxic)
    ensures r.maxHealth == t.maxHealth + healthBonus
    ensures r.currentHealth == r.maxHealth
    ensures r.moveSpeed == t.moveSpeed + speedBonus
    ensures r.(maxHealth := t.maxHealth, currentHealth := t.currentHealth, moveSpeed := t.moveSpeed) == t
  {
    var raised := t.maxHealth + healthBonus;
    t.(maxHealth := raised, currentHealth := raised, moveSpeed := t.moveSpeed + speedBonus)
  }

  /** Update: without a player nothing happens. Farther than chaseDistance
      it chases and the cooldown is untouched; otherwise the cooldown runs
      down by dt, and when it reaches 0 a shot fires and it restarts at fireRate. */
  function Update(t: Toxic, distanceToPlayer: real, dt: real): (a: Act)
    ensures !t.hasPlayer ==> a == Act(t, false, false)
    ensures a.chased <==> t.hasPlayer && distanceToPlayer > t.chaseDistance
    ensures a.chased ==> a.enemy == t && !a.fired
    ensures a.fired <==> t.hasPlayer && distanceToPlayer <= t.chaseDistance && t.fireCooldown - dt <= 0.0
    ensures a.fired ==> a.enemy == t.(fireCooldown := t.fireRate)
    ensures t.hasPlayer && !a.chased && !a.fired ==> a.enemy == t.(fireCooldown := t.fireCooldown - dt)
  {
    if !t.hasPlayer then Act(t, false, false)
    else if distanceToPlayer > t.chaseDistance then Act(t, true, false)
    else
      var cooldown := t.fireCooldown - dt;
      if cooldown <= 0.0 then Act(t.(fireCooldown := t.fireRate), false, true)
      else Act(t.(fireCooldown := cooldown), false, false)
  }

  /** Standing in range, a tick shorter than the fire rate that follows a
      shot never fires again. */
  lemma NoDoubleShot(t: Toxic, distance: real, dt1: real, dt2: real)
    requires t.hasPlayer && distance <= t.chaseDistance
    requires dt1 >= 0.0 && dt2 >= 0.0 && dt2 < t.fireRate
    ensures var a1 := Update(t, distance, dt1);
      a1.fired ==> !Update(a1.enemy, distance, dt2).fired
  {
  }

  /** A dead toxic enemy does nothing on later ticks. */
  lemma DeadToxicIsInert(t: Toxic, amount: int, distance: real, dt: real)
    requires amount >= t.currentHealth
    ensures var h := TakeDamage(t, amount);
      h.died && Update(h.enemy, distance, dt) == Act(h.enemy, false, false)
  {
  }

  /** An upgraded toxic enemy survives any hit smaller than its new maximum. */
  lemma UpgradedSurvivesSmallHit(t: Toxic, healthBonus: int, speedBonus: real, amount: int)
    requires amount < t.maxHealth + healthBonus
    ensures !TakeDamage(UpgradeState(t, healthBonus, speedBonus), amount).died
  {
  }

  /** Health lies between zero and the maximum. */
  predicate Healthy(t: Toxic) {
    0 <= t.currentHealth <= t.maxHealth
  }

  /** Awake establishes the health range; damage, upgrades that keep the
      maximum non-negative, and Update preserve it. */
  lemma HealthyAlways(t: Toxic, playerInScene: bool, amount: int, healthBonus: int, speedBonus: real,
                      distance: real, dt: real)
    requires t.maxHealth >= 0
    ensures Healthy(Awake(t, playerInScene))
    ensures Healthy(t) && amount >= 0 ==> Healthy(TakeDamage(t, amount).enemy)
    ensures t.maxHealth + healthBonus >= 0 ==> Healthy(UpgradeState(t, healthBonus, speedBonus))
    ensures Healthy(t) ==> Healthy(Update(t, distance, dt).enemy)
  {
  }

}

=== FILE: wrappers.dfy ===
/** The optional value used wherever the game passes a nullable reference. */
module Wrappers {

  datatype Option<+T> = None | Some(value: T)

}
